=== FILE: README.md ===
# Work-day tracker: a Dafny model of its record keeping

The tracker logs billable work days. Each record has a date, a location
(`Casa`, `Empresa` or `Otro`), a daily rate, a payment status (`Pendiente` or
`Pagado`) and optional notes. From these records it derives the summary
totals, a status-filtered list, a six-month income chart and a printable
receipt for a month or a range of days. This project models that logic as
pure functions over immutable sequences of `WorkDay` records. It proves what
the operations promise:

- upsert-by-date replaces exactly the records of the re-entered dates and keeps the list sorted most recent first;
- the status toggle is an involution;
- deletion removes exactly one id;
- the status totals partition the grand total;
- a batch entry has one record per calendar day of its interval, with correct month and leap-year rollover;
- the receipt selects exactly its period, sorted oldest first.

Modules, leaf first:

- `Wrappers`: `Option` and `Result`.
- `Calendar`: Gregorian days. It holds the validity check, the next day, the inclusive day walk (`eachDayOfInterval`), a serial day number and month arithmetic with year borrow (`subMonths`).
- `Digits`: decimal digit strings and `Number.prototype.toString` on whole numbers below 10^21. From 10^21 on, JavaScript switches to exponent form.
- `IsoDate`: the `yyyy-MM-dd` and `yyyy-MM` strings that dates are stored and compared as. Records hold dates as `(year, month, day)` triples. The lemmas here show that nothing is lost by this:
  - formatting round-trips through parsing;
  - string order equals chronological order, which is what the `localeCompare` sorts rely on;
  - a day string starts with a month string exactly when the day is in that month, which is what the `startsWith` chart filter relies on.
- `Types`: the two enumerations with their literal tokens, and the `WorkDay` record.
- `Seqs`: order-preserving `filter` and the subsequence relation.
- `Records`: the stable date sort in both directions, the one-record-per-date convention, and sums of rates.
- `Store`: `handleAddDays`, `toggleStatus` and `deleteDay`.
- `Aggregates`: `stats`, `displayDays`, `chartData` and the location bars.
- `Entry`: the entry form's submit. It covers `parseFloat(rate) || 0`, single and batch mode, the invalid-range abort, and the hand-off to the store.
- `Receipt`: the month or range selection, the totals, the file name, the period label and the short codes.

Two points where the model follows the code rather than its comments or
labels:

- The comment at App.tsx:58 says the default rate is updated from the "last entry", but App.tsx:59 uses the first record of the batch (`newDays[0]`). `Store.AddDays` uses the first.
- The batch walk sits in a `try` whose `catch` (components/AddEntryModal.tsx:59-62) abandons the whole submit on any exception from `parseISO` or `eachDayOfInterval`. The model takes that path when a day is invalid or the end precedes the start.

## Model

| member | source | states |
|---|---|---|
| Types.LocationFromToken | types.ts:1-5 | a stored string maps back to a location exactly when it is that location's token (`Casa`, `Empresa`, `Otro`) |
| Types.LocationTokenRoundTrip | types.ts:1-5 | reading a location's token back gives that location; any string other than the three tokens reads as nothing |
| Types.StatusFromToken | types.ts:7-10 | a stored string maps back to a status exactly when it is that status's token (`Pendiente`, `Pagado`) |
| Types.StatusTokenRoundTrip | types.ts:7-10 | reading a status's token back gives that status; any string other than the two tokens reads as nothing |
| Types.Flip | App.tsx:66 | the toggled status always differs from the old one, and it is PAID exactly when the old one was PENDING |
| Types.FlipInvolution | App.tsx:66 | toggling a status twice gives it back |
| IsoDate.ParseFormat | types.ts:14 | the `YYYY-MM-DD` string of a day with a four-digit year parses back to that day |
| IsoDate.FormatParse | types.ts:14 | any string that parses as a day is exactly the `YYYY-MM-DD` form of that day |
| IsoDate.FormatOrder | App.tsx:60 | comparing two stored day strings character by character gives chronological order, which is what the `localeCompare` sort relies on |
| IsoDate.FormatInjective | App.tsx:55-56 | two days have the same stored string exactly when they are the same day, so matching on date strings matches on days |
| IsoDate.MonthPrefix | App.tsx:99 | a day string starts with a `yyyy-MM` string exactly when the day lies in that month |
| Calendar.Next | components/AddEntryModal.tsx:43-46 | the next day of a valid day is valid and later, and no valid day lies strictly between them; this covers month ends, leap years and year ends |
| Calendar.NextIsOneDayLater | components/AddEntryModal.tsx:43-46 | the serial day number of the next day is one more |
| Calendar.DaysBetween | components/AddEntryModal.tsx:43-46 | the walk from start to end is empty exactly when end precedes start; otherwise it begins at start, ends at end, stays within the interval and steps by Next |
| Calendar.DaysBetweenAscending | components/AddEntryModal.tsx:43-46 | the days of the walk are strictly increasing, so no day appears twice |
| Calendar.DaysBetweenComplete | components/AddEntryModal.tsx:43-46 | a valid day is in the walk exactly when it lies between start and end, both ends included |
| Calendar.DaysBetweenCount | components/AddEntryModal.tsx:43-46 | the walk holds as many days as the day-number difference plus one |
| Calendar.SubMonthsIndex | App.tsx:95 | going back i months, with a borrow from the year at January, gives a valid month exactly i months earlier |
| Seqs.Filter | App.tsx:73 | selection keeps each element the predicate accepts, as many times as it occurred, drops the others, and never grows the list |
| Seqs.FilterIsSubsequence | App.tsx:73 | selection keeps the relative order of the elements it keeps |
| Seqs.FilterAll | App.tsx:88 | a selection that accepts every element returns the list unchanged |
| Records.Sort | App.tsx:60 | the sort returns a permutation of its input ordered by date in the chosen direction |
| Records.SortOfSorted | App.tsx:60 | sorting a list already in date order returns it unchanged |
| Records.SortIsStable | App.tsx:60 | the sort is stable: for every date, the records of that date appear in the sorted list in the same relative order as in the input |
| Records.SortIdempotent | App.tsx:60 | sorting twice is the same as sorting once |
| Records.SortedSubsequence | App.tsx:71-75 | removing records from a sorted list leaves it sorted |
| Records.UniqueDatesSubMultiset | App.tsx:54-60 | one record per date survives any reordering or removal of records |
| Records.SumRatesPermutation | App.tsx:79-80 | the sum of rates does not depend on the order of the records |
| Records.StatusPartition | App.tsx:79-80 | the pending sum plus the paid sum is the sum of all rates |
| Store.Empty | App.tsx:27-31 | the initial store has no records and a default rate of 100 |
| Store.AddDays | App.tsx:54-61 | after the upsert every batch record is present; an old record stays exactly when its date is not in the batch, with its multiplicity; the list is sorted most recent first; the default rate becomes the first batch record's rate, or stays unchanged for an empty batch |
| Store.AddDaysKeepsUniqueDates | App.tsx:54-60 | if the store and the batch each hold at most one record per date, so does the result |
| Store.AddDaysReplaces | App.tsx:54-60 | for a batch with distinct dates, each batch record occurs exactly once afterwards and is the only record on its date |
| Store.AddDaysStable | App.tsx:54-60 | the records of any one date keep their input order through the upsert: the batch's records for a batch date, the store's records for any other date |
| Store.AddDaysTotal | App.tsx:54-60 | after the upsert the rates sum to the kept old records' sum plus the batch's sum |
| Store.AddNewDayGrows | App.tsx:54-60 | adding a record for a date not yet stored adds exactly one record |
| Store.AddExistingDayKeepsSize | App.tsx:54-60 | with one record per date, re-entering a stored date keeps the number of records |
| Store.ToggleStatus | App.tsx:63-69 | length and order are kept; a record's status changes exactly when its id matches; every other field of every record is unchanged |
| Store.ToggleInvolution | App.tsx:63-69 | toggling the same id twice restores the list |
| Store.ToggleKeepsSorted | App.tsx:63-69 | toggling keeps the most-recent-first order |
| Store.DeleteDay | App.tsx:71-75 | exactly the records with that id are removed, the others keep their multiplicity and relative order |
| Store.DeleteAbsentIsIdentity | App.tsx:71-75 | deleting an id no record has leaves the list unchanged |
| Store.DeletePresentShrinks | App.tsx:71-75 | with unique ids, deleting a present id removes exactly one record |
| Store.DeleteKeepsSorted | App.tsx:71-75 | deleting keeps the most-recent-first order |
| Aggregates.ComputeStats | App.tsx:78-84 | pending plus paid equals the sum of all rates; the day count is the list length; home days plus the days elsewhere make the day count; with no pending record the pending total is zero |
| Aggregates.StatsOfOne | App.tsx:78-84 | a single record adds its rate to the pending or the paid total according to its status, counts as one day, and as one home day exactly when it is at home |
| Aggregates.StatsAppend | App.tsx:78-84 | every figure of two lists joined is the sum of the two lists' figures, so with the single-record case each figure is the sum of its records' contributions |
| Aggregates.LocationBars | App.tsx:276-280 | the first ('Casa') bar is the home-day count; both bars are non-negative and together make the day count |
| Aggregates.LocationBarsOfDays | App.tsx:278-279 | over any record list, 'Casa' counts the home records and 'Empresa' counts the office and other-location records together |
| Aggregates.AwaySplit | App.tsx:279 | the records not at home are exactly the office records plus the other-location records, so the 'Empresa' bar counts both |
| Aggregates.ToggleMovesRate | App.tsx:63-84 | with unique ids, toggling a pending record moves its rate from the pending total to the paid total, and toggling a paid one moves it back |
| Aggregates.ToggleKeepsTotals | App.tsx:63-84 | toggling changes neither the day count nor the pending-plus-paid total |
| Aggregates.DisplayDays | App.tsx:87-89 | the 'Todos' filter returns the list unchanged; a status filter keeps exactly the records with that status, in order |
| Aggregates.DisplayKeepsSorted | App.tsx:87-89 | the filtered list stays in most-recent-first order |
| Aggregates.IncomeInEmptyMonth | App.tsx:98-100 | a month with no record has income zero |
| Aggregates.ChartData | App.tsx:92-104 | there are six points, oldest first; the last is today's month and consecutive points are consecutive months; each point's income is the rate sum of that month's records; an empty store gives all zeros |
| Entry.ParseFloat | components/AddEntryModal.tsx:28 | a number read after a minus sign is never positive, and one read without it is never negative |
| Entry.NoNumberIff | components/AddEntryModal.tsx:28 | the text reads as no number (NaN) exactly when, after white space and a sign, it starts neither with a digit nor with a point followed by a digit |
| Entry.ParseFloatOfDecimal | components/AddEntryModal.tsx:28 | `whole.frac`, followed by anything that starts with neither a digit nor an exponent mark `e`/`E`, reads as whole plus frac tenths, hundredths and so on |
| Entry.ParseFloatNegated | components/AddEntryModal.tsx:28 | a leading minus sign negates the number read from the rest, and leaves "no number" as it is |
| Entry.ParseFloatSkipsSpace | components/AddEntryModal.tsx:28 | a leading white space character does not change what is read |
| Entry.ParseFloatPlus | components/AddEntryModal.tsx:28 | a leading plus sign leaves the number read from the rest unchanged |
| Entry.ParseRate | components/AddEntryModal.tsx:28 | text that reads as no number, in particular text without any digit, gives rate 0; otherwise the rate is the number read, so the form never rejects its rate |
| Entry.ParseRateOfWholeNumber | components/AddEntryModal.tsx:18-28 | the decimal form of a whole number reads back as that number when what follows is not a digit, a point or an exponent mark; the field's first text `100` reads as 100 |
| Entry.ParseRateOfDecimal | components/AddEntryModal.tsx:28 | a rate typed as a whole number, a point and decimals reads as that amount when what follows is not a digit or an exponent mark; this covers the field's `step="0.01"` entries such as `85.50` |
| Entry.Stamp | components/AddEntryModal.tsx:31-39 | the record made for one day has the given id and day and takes location, status, rate, notes and creation time from the form |
| Entry.StampAll | components/AddEntryModal.tsx:48-58 | one record per day of the walk, in the walk's order; the k-th has the k-th fresh id and the k-th day, and all take the form's attributes |
| Entry.BuildEntries | components/AddEntryModal.tsx:25-63 | single mode gives one record on the chosen day; batch mode fails exactly when a day is invalid or the end precedes the start, and otherwise gives consecutive valid days from start to end; every record carries the form's location, status, rate and notes and the k-th fresh id |
| Entry.BatchCoversInterval | components/AddEntryModal.tsx:42-58 | a batch has a record on a valid day exactly when the day lies in the inclusive interval |
| Entry.BatchCount | components/AddEntryModal.tsx:42-58 | a batch holds the day-number difference plus one records |
| Entry.EntriesHaveUniqueDates | components/AddEntryModal.tsx:42-58 | the records of one submit have pairwise distinct dates |
| Entry.EntriesHaveDistinctIds | components/AddEntryModal.tsx:32-50 | with an id supply that never repeats, the records of one submit have pairwise distinct ids |
| Entry.FirstWeekOf2024 | components/AddEntryModal.tsx:42-58 | the batch from 2024-01-01 to 2024-01-07 succeeds with seven records |
| Entry.Submit | components/AddEntryModal.tsx:59-66 | on an invalid range the store is unchanged; otherwise the result is the upsert of the batch, so it holds the batch plus the old records on other dates |
| Entry.SubmitBatchOnePerDay | components/AddEntryModal.tsx:42-66 | after a batch is saved, each day of the interval has exactly one record, and it carries the form's attributes |
| Receipt.SelectDays | components/ReceiptGenerator.tsx:25-37 | the selection is sorted oldest first and holds each record of the period as often as the list does, and no other; a range whose end precedes its start selects nothing |
| Receipt.MonthSelectionByPrefix | components/ReceiptGenerator.tsx:28-29 | a record is on a month receipt exactly when its date string starts with the month string |
| Receipt.SelectDaysStable | components/ReceiptGenerator.tsx:25-37 | the records of a date inside the period appear on the receipt in their list order; those of a date outside it do not appear |
| Receipt.Summarize | components/ReceiptGenerator.tsx:39-45 | pending plus paid equals the total; the total is the sum of the selected rates; the day count is the number of selected records |
| Receipt.ReceiptTotalOfPeriod | components/ReceiptGenerator.tsx:36-40 | the receipt total is the rate sum of all records of the period, whatever order the list was in |
| Receipt.ReceiptStatusTotals | components/ReceiptGenerator.tsx:44-45 | the pending amount is the rate sum of the period's pending records, and the paid amount that of its paid records |
| Receipt.MarchExample | components/ReceiptGenerator.tsx:25-45 | with records on 2024-03-01 (100, pending) and 2024-03-15 (200, paid), the March receipt lists both and totals 300 |
| Receipt.FileName | components/ReceiptGenerator.tsx:59 | the file name is `Recibo_`, then the period, then `.png`; the period is the month label, or the first day, `_a_` and the last day, each day parsing back from its place in the name |
| Receipt.FileNameInjective | components/ReceiptGenerator.tsx:59 | different periods give different file names |
| Receipt.PeriodLabel | components/ReceiptGenerator.tsx:174 | a month label has 7 characters; a range label is two day strings joined by ` / `, and each end parses back to that end's day |
| Receipt.MonthLabelPrefix | components/ReceiptGenerator.tsx:174 | a month label is the prefix of the date strings of exactly that month's days |
| Receipt.PeriodLabelInjective | components/ReceiptGenerator.tsx:174 | different periods get different labels |
| Receipt.LocationCode | components/ReceiptGenerator.tsx:197 | the code is `Casa` exactly for HOME, `Ofic` exactly for OFFICE and `Otro` exactly for OTHER |
| Receipt.StatusCode | components/ReceiptGenerator.tsx:200 | the code is `OK` exactly for PAID and `PDT` exactly for PENDING |

## Left out

- Loading and saving the list in local storage, including the JSON parse and its failure branch, are I/O. The store is the in-memory list only.
- The `confirm()` dialog before deletion is UI. `Store.DeleteDay` is the branch taken after confirmation.
- `uuidv4()` is a foreign, nondeterministic call. It becomes the injected supply `newId`, called with the record's position in the batch.
- `Date.now()` becomes one `now` instant shared by all records of a submit. Separate calls within one loop may differ by milliseconds.
- `new Date()` as today is a clock read. The chart takes `today` as a parameter. Only its month matters, so `subMonths`' clamping of the day of the month plays no part.
- date-fns is not part of this model. `parseISO`, `format`, `isWithinInterval` and `eachDayOfInterval` are modelled by their effect on valid days. Reversed intervals depend on the library version, which these sources do not fix. In date-fns v2, `eachDayOfInterval` and `isWithinInterval` throw `RangeError('Invalid interval')`. In v3, `isWithinInterval` orders the two ends. In v3, `eachDayOfInterval` walks a reversed interval backwards and returns `[]` for an Invalid Date.
- Entry.BuildEntries: follows date-fns v2. A reversed or invalid batch interval throws and takes the abort path of the `catch` at components/AddEntryModal.tsx:59-62. It does not model v3's backward walk or v3's empty batch.
- Receipt.SelectDays: a receipt range whose end precedes its start selects nothing. This is a modelling decision. date-fns v2 would throw during rendering, and v3 would select the days between the two ends.
- The receipt's month and range inputs are not required fields, so they may be cleared. A cleared month gives `""`, which no record's `yyyy-MM` equals, so that receipt is empty. A cleared range end gives an Invalid Date in the library. Neither case is modelled, because `Period` holds a calendar month or two days, never an empty input.
- The entry form copies `defaultRate` into its rate field only on its first render (components/AddEntryModal.tsx:18). The form stays mounted while closed (App.tsx:308-313), so later updates of the default rate never reach the field. The form is modelled as taking its rate text as input. `Store.AddDays`'s default-rate update is modelled, but it does not feed back into the form.
- Dates in the store are triples, so a hand-edited stored date that is not a calendar day is not represented. The `IsoDate` lemmas cover well-formed strings with four-digit years.
- Entry.ParseRate: models `parseFloat` on optional white space, an optional sign, digits and an optional fraction. It does not model exponents (`1e3`) or `Infinity`.
- Entry.ParseFloat: reads no exponent. `1e3` reads as 1, where `parseFloat` gives 1000. Reals have no infinity, so `Infinity` is not read either. The value lemmas (`ParseFloatOfDecimal`, `ParseRateOfWholeNumber`, `ParseRateOfDecimal`) require a tail that does not start with `e` or `E`, so they hold of `parseFloat` as well.
- Entry.NoNumberIff: calls `Infinity` (after white space and a sign) no number, where `parseFloat` reads it as Infinity. A `type="number"` field does not produce that text.
- Rates are exact reals. Floating-point rounding in the sums, `toFixed(2)` and `toLocaleString` display formatting are left out.
- Calendar.DayNumber is defined from year 0 on. `Entry.BatchCount` therefore requires a start year of at least 0.
- The Spanish month labels of the chart and the locale formatting of dates on the receipt are presentation.
- The PNG export through html2canvas and the download link click are left out, except for the file name.
- JSX, recharts and Tailwind rendering are presentation. So are `StatsCard` and `HelpModal`. The AI analysis modal is a disabled stub that renders nothing.
- The source does not enforce unique ids across the store. Lemmas that need unique ids state it as a precondition.

=== FILE: aggregates.dfy ===
/** Values derived from the whole record list on every render (App.tsx):
    the summary totals, the status-filtered list and the six-month income
    series. */
module Aggregates {
  import opened Calendar
  import opened Types
  import opened Seqs
  import opened Records
  import Store

  datatype Stats = Stats(totalPending: real, totalPaid: real, totalDays: int, homeDays: int)

  predicate AtHome(d: WorkDay) {
    d.location == Home
  }

  predicate Away(d: WorkDay) {
    d.location != Home
  }

  predicate AtOffice(d: WorkDay) {
    d.location == Office
  }

  predicate AtOther(d: WorkDay) {
    d.location == Other
  }

  /** The summary cards and the location bars. The home days and the days
      elsewhere split the day count. */
  function ComputeStats(days: seq<WorkDay>): (r: Stats)
    ensures r.totalPending + r.totalPaid == SumRates(days)
    ensures r.totalDays == |days|
    ensures 0 <= r.homeDays <= r.totalDays
    ensures r.homeDays + |Filter(days, Away)| == |days|
    ensures (forall i :: 0 <= i < |days| ==> days[i].status == Paid) ==> r.totalPending == 0.0
  {
    StatusPartition(days);
    PaidOnly(days);
    FilterComplement(days, AtHome, Away);
    Stats(StatusSum(days, Pending), StatusSum(days, Paid), |days|, |Filter(days, AtHome)|)
  }

  /** What one record contributes to each figure. */
  lemma StatsOfOne(d: WorkDay)
    ensures ComputeStats([d])
         == Stats(if d.status == Pending then d.rate else 0.0,
                  if d.status == Paid then d.rate else 0.0,
                  1,
                  if d.location == Home then 1 else 0)
  {
    assert [d][1..] == [];
  }

  /** The figures of two lists joined are the sums of their figures, so
      with StatsOfOne every figure is the sum of its records' contributions. */
  lemma StatsAppend(a: seq<WorkDay>, b: seq<WorkDay>)
    ensures ComputeStats(a + b).totalPending == ComputeStats(a).totalPending + ComputeStats(b).totalPending
    ensures ComputeStats(a + b).totalPaid == ComputeStats(a).totalPaid + ComputeStats(b).totalPaid
    ensures ComputeStats(a + b).totalDays == ComputeStats(a).totalDays + ComputeStats(b).totalDays
    ensures ComputeStats(a + b).homeDays == ComputeStats(a).homeDays + ComputeStats(b).homeDays
  {
    StatusAppend(a, b, Pending);
    StatusAppend(a, b, Paid);
    HomeAppend(a, b);
  }

  lemma StatusAppend(a: seq<WorkDay>, b: seq<WorkDay>, st: Status)
    ensures st == Pending ==>
              ComputeStats(a + b).totalPending == ComputeStats(a).totalPending + ComputeStats(b).totalPending
    ensures st == Paid ==>
              ComputeStats(a + b).totalPaid == ComputeStats(a).totalPaid + ComputeStats(b).totalPaid
  {
    StatusSumAppend(a, b, st);
  }

  lemma HomeAppend(a: seq<WorkDay>, b: seq<WorkDay>)
    ensures ComputeStats(a + b).homeDays == ComputeStats(a).homeDays + ComputeStats(b).homeDays
  {
    FilterAppend(a, b, AtHome);
  }

  lemma {:induction false} PaidOnly(days: seq<WorkDay>)
    ensures (forall i :: 0 <= i < |days| ==> days[i].status == Paid) ==> StatusSum(days, Pending) == 0.0
  {
    if |days| > 0 {
      PaidOnly(days[1..]);
    }
  }

  /** The two bars of the location chart: 'Casa' (home days) first, then
      'Empresa' (all other days). */
  function LocationBars(s: Stats): (bars: (int, int))
    requires 0 <= s.homeDays <= s.totalDays
    ensures bars.0 >= 0 && bars.1 >= 0
    ensures bars.0 == s.homeDays
    ensures bars.0 + bars.1 == s.totalDays
  {
    (s.homeDays, s.totalDays - s.homeDays)
  }

  /** Over a record list, the 'Casa' bar counts the home records and the
      'Empresa' bar counts the office records and the other-location
      records together. */
  lemma LocationBarsOfDays(days: seq<WorkDay>)
    ensures LocationBars(ComputeStats(days)).0 == |Filter(days, AtHome)|
    ensures LocationBars(ComputeStats(days)).1
         == |Filter(days, AtOffice)| + |Filter(days, AtOther)|
  {
    AwaySplit(days);
  }

  /** Every record away from home is either at the office or elsewhere. */
  lemma {:induction false} AwaySplit(days: seq<WorkDay>)
    ensures |Filter(days, Away)| == |Filter(days, AtOffice)| + |Filter(days, AtOther)|
  {
    if |days| > 0 {
      AwaySplit(days[1..]);
    }
  }

  /** Changing the status of the record at position `k` alone moves its rate
      from the old status's sum to the new one's. */
  lemma {:induction false} StatusSumShift(days: seq<WorkDay>, t: seq<WorkDay>, k: int, st: Status)
    requires |t| == |days| && 0 <= k < |days|
    requires forall i :: 0 <= i < |days| && i != k ==> t[i] == days[i]
    requires t[k] == days[k].(status := t[k].status)
    ensures StatusSum(t, st) + (if days[k].status == st then days[k].rate else 0.0)
         == StatusSum(days, st) + (if t[k].status == st then days[k].rate else 0.0)
  {
    if k == 0 {
      assert t[1..] == days[1..];
    } else {
      assert t[0] == days[0];
      StatusSumShift(days[1..], t[1..], k - 1, st);
    }
  }

  /** With unique ids, toggling a pending record moves its rate from the
      pending total to the paid total, and back for a paid one. */
  lemma ToggleMovesRate(days: seq<WorkDay>, id: Id, k: int)
    requires 0 <= k < |days| && days[k].id == id
    requires forall i :: 0 <= i < |days| && i != k ==> days[i].id != id
    ensures var before := ComputeStats(days);
      var after := ComputeStats(Store.ToggleStatus(days, id));
      if days[k].status == Pending then
        after.totalPending == before.totalPending - days[k].rate
        && after.totalPaid == before.totalPaid + days[k].rate
      else
        after.totalPaid == before.totalPaid - days[k].rate
        && after.totalPending == before.totalPending + days[k].rate
  {
    var t := Store.ToggleStatus(days, id);
    assert t[k].status != days[k].status;
    StatusSumShift(days, t, k, Pending);
    StatusSumShift(days, t, k, Paid);
  }

  /** Toggling changes neither the number of days nor the sum of all rates. */
  lemma ToggleKeepsTotals(days: seq<WorkDay>, toggled: seq<WorkDay>)
    requires |toggled| == |days|
    requires forall i :: 0 <= i < |days| ==> toggled[i].(status := days[i].status) == days[i]
    ensures ComputeStats(toggled).totalDays == ComputeStats(days).totalDays
    ensures ComputeStats(toggled).totalPending + ComputeStats(toggled).totalPaid
         == ComputeStats(days).totalPending + ComputeStats(days).totalPaid
  {
    SameRatesSameSum(days, toggled);
  }

  lemma {:induction false} SameRatesSameSum(a: seq<WorkDay>, b: seq<WorkDay>)
    requires |a| == |b|
    requires forall i :: 0 <= i < |a| ==> b[i].(status := a[i].status) == a[i]
    ensures SumRates(a) == SumRates(b)
  {
    if |a| > 0 {
      assert b[0].rate == b[0].(status := a[0].status).rate;
      SameRatesSameSum(a[1..], b[1..]);
    }
  }

  /** The list filter: 'Todos' or one status. */
  datatype StatusFilter = All | Only(status: Status)

  function DisplayDays(days: seq<WorkDay>, f: StatusFilter): (r: seq<WorkDay>)
    ensures f == All ==> r == days
    ensures f.Only? ==> forall x :: multiset(r)[x] == if x.status == f.status then multiset(days)[x] else 0
    ensures IsSubsequence(r, days)
  {
    var keep := (d: WorkDay) => f == All || d.status == f.status;
    FilterIsSubsequence(days, keep);
    FilterAll(days, keep);
    Filter(days, keep)
  }

  lemma DisplayKeepsSorted(days: seq<WorkDay>, f: StatusFilter)
    requires Sorted(Descending, days)
    ensures Sorted(Descending, DisplayDays(days, f))
  {
    SortedSubsequence(Descending, DisplayDays(days, f), days);
  }

  /** One point of the income chart. */
  datatype ChartPoint = ChartPoint(month: YearMonth, income: real)

  /** Sum of the rates of the records dated in month `ym` (those whose date
      string starts with the `yyyy-MM` string of `ym`). */
  function IncomeIn(days: seq<WorkDay>, ym: YearMonth): real {
    SumRates(Filter(days, (d: WorkDay) => MonthOf(d.date) == ym))
  }

  lemma {:induction false} IncomeInEmptyMonth(days: seq<WorkDay>, ym: YearMonth)
    requires forall i :: 0 <= i < |days| ==> MonthOf(days[i].date) != ym
    ensures IncomeIn(days, ym) == 0.0
  {
    if |days| > 0 {
      IncomeInEmptyMonth(days[1..], ym);
    }
  }

  /** The six trailing months up to and including the month of `today`,
      oldest first, each with the income recorded in it. */
  method ChartData(days: seq<WorkDay>, today: Date) returns (points: seq<ChartPoint>)
    ensures |points| == 6
    ensures points[5].month == MonthOf(today)
    ensures forall k :: 0 <= k < 6 ==> points[k].month == SubMonths(MonthOf(today), 5 - k)
    ensures ValidMonth(MonthOf(today)) ==>
              forall k :: 0 <= k < 6 ==>
                ValidMonth(points[k].month)
                && MonthIndex(points[k].month) == MonthIndex(MonthOf(today)) - (5 - k)
    ensures forall k :: 0 <= k < 6 ==> points[k].income == IncomeIn(days, points[k].month)
    ensures |days| == 0 ==> forall k :: 0 <= k < 6 ==> points[k].income == 0.0
  {
    var current := MonthOf(today);
    points := [];
    var i := 5;
    while i >= 0
      invariant -1 <= i <= 5
      invariant |points| == 5 - i
      invariant forall k :: 0 <= k < |points| ==> points[k].month == SubMonths(current, 5 - k)
      invariant forall k :: 0 <= k < |points| ==> points[k].income == IncomeIn(days, points[k].month)
    {
      var month := SubMonths(current, i);
      var amount := IncomeIn(days, month);
      points := points + [ChartPoint(month, amount)];
      i := i - 1;
    }
    if ValidMonth(current) {
      forall j | 0 <= j < 6
        ensures ValidMonth(SubMonths(current, j))
        ensures MonthIndex(SubMonths(current, j)) == MonthIndex(current) - j
      {
        SubMonthsIndex(current, j);
      }
    }
    if |days| == 0 {
      forall k | 0 <= k < 6
        ensures points[k].income == 0.0
      {
        IncomeInEmptyMonth(days, points[k].month);
      }
    }
  }
}

=== FILE: calendar.dfy ===
/** Gregorian calendar days and months, the arithmetic behind the batch
    interval walk and the trailing-month chart. */
module Calendar {

  /** A calendar day; no time-of-day component. */
  datatype Date = Date(year: int, month: int, day: int)

  /** A calendar month, the `yyyy-MM` key of the chart and the receipt. */
  datatype YearMonth = YearMonth(year: int, month: int)

  predicate IsLeapYear(y: int) {
    (y % 4 == 0 && y % 100 != 0) || y % 400 == 0
  }

  function DaysInMonth(y: int, m: int): (n: int)
    requires 1 <= m <= 12
    ensures 28 <= n <= 31
    ensures n == 29 <==> m == 2 && IsLeapYear(y)
  {
    if m == 2 then (if IsLeapYear(y) then 29 else 28)
    else if m == 4 || m == 6 || m == 9 || m == 11 then 30
    else 31
  }

  predicate ValidMonth(ym: YearMonth) {
    1 <= ym.month <= 12
  }

  /** A day that exists on the proleptic Gregorian calendar. */
  predicate Valid(d: Date) {
    1 <= d.month <= 12 && 1 <= d.day <= DaysInMonth(d.year, d.month)
  }

  function MonthOf(d: Date): YearMonth {
    YearMonth(d.year, d.month)
  }

  /** Chronological order of days: year, then month, then day. */
  predicate Before(a: Date, b: Date) {
    a.year < b.year
    || (a.year == b.year && (a.month < b.month || (a.month == b.month && a.day < b.day)))
  }

  predicate AtOrBefore(a: Date, b: Date) {
    Before(a, b) || a == b
  }

  lemma BeforeIsStrictTotalOrder(a: Date, b: Date, c: Date)
    ensures !Before(a, a)
    ensures Before(a, b) && Before(b, c) ==> Before(a, c)
    ensures a == b || Before(a, b) || Before(b, a)
  {
  }

  /** The next calendar day, rolling over the month and the year. */
  function Next(d: Date): (n: Date)
    requires Valid(d)
    ensures Valid(n)
    ensures Before(d, n)
    ensures forall e :: Valid(e) && Before(d, e) ==> AtOrBefore(n, e)
  {
    if d.day < DaysInMonth(d.year, d.month) then Date(d.year, d.month, d.day + 1)
    else if d.month < 12 then Date(d.year, d.month + 1, 1)
    else Date(d.year + 1, 1, 1)
  }

  /** A numbering that grows with Before on valid days; it bounds the interval walk. */
  function Rank(d: Date): int {
    d.year * 512 + d.month * 32 + d.day
  }

  lemma RankMonotone(a: Date, b: Date)
    requires Valid(a) && Valid(b)
    ensures Before(a, b) <==> Rank(a) < Rank(b)
  {
  }

  /** Every calendar day from `start` to `end` inclusive, in order. */
  function DaysBetween(start: Date, end: Date): (r: seq<Date>)
    requires Valid(start) && Valid(end)
    ensures Before(end, start) <==> |r| == 0
    ensures |r| > 0 ==> r[0] == start && r[|r| - 1] == end
    ensures forall i :: 0 <= i < |r| ==> Valid(r[i]) && AtOrBefore(start, r[i]) && AtOrBefore(r[i], end)
    ensures forall i :: 0 <= i < |r| - 1 ==> r[i + 1] == Next(r[i])
    decreases Rank(end) - Rank(start)
  {
    RankMonotone(start, end);
    RankMonotone(start, Next(start));
    if Before(end, start) then []
    else [start] + DaysBetween(Next(start), end)
  }

  predicate StrictlyAscending(r: seq<Date>) {
    forall i, j :: 0 <= i < j < |r| ==> Before(r[i], r[j])
  }

  /** The walk is strictly ascending, so it never repeats a day. */
  lemma {:induction false} DaysBetweenAscending(start: Date, end: Date)
    requires Valid(start) && Valid(end)
    ensures StrictlyAscending(DaysBetween(start, end))
    decreases Rank(end) - Rank(start)
  {
    var r := DaysBetween(start, end);
    if !Before(end, start) {
      RankMonotone(start, end);
      RankMonotone(start, Next(start));
      var t := DaysBetween(Next(start), end);
      assert r == [start] + t;
      DaysBetweenAscending(Next(start), end);
      forall i, j | 0 <= i < j < |r|
        ensures Before(r[i], r[j])
      {
        if i > 0 {
          assert r[i] == t[i - 1] && r[j] == t[j - 1];
          assert Before(t[i - 1], t[j - 1]);
        } else {
          assert r[j] == t[j - 1];
          assert AtOrBefore(Next(start), t[j - 1]);
          BeforeIsStrictTotalOrder(start, Next(start), t[j - 1]);
        }
      }
    }
  }

  /** The walk misses no calendar day of the interval. */
  lemma {:induction false} DaysBetweenComplete(start: Date, end: Date, x: Date)
    requires Valid(start) && Valid(end) && Valid(x)
    ensures x in DaysBetween(start, end) <==> AtOrBefore(start, x) && AtOrBefore(x, end)
    decreases Rank(end) - Rank(start)
  {
    var r := DaysBetween(start, end);
    if AtOrBefore(start, x) && AtOrBefore(x, end) {
      assert !Before(end, start);
      RankMonotone(start, end);
      RankMonotone(start, Next(start));
      if x != start {
        assert AtOrBefore(Next(start), x);
        DaysBetweenComplete(Next(start), end, x);
        assert r == [start] + DaysBetween(Next(start), end);
      }
    }
  }

  function DaysInYear(y: int): int {
    if IsLeapYear(y) then 366 else 365
  }

  /** Days from the first of January of year `y` to the first day of month `m`. */
  function DaysBeforeMonth(y: int, m: int): int
    requires 1 <= m <= 12
  {
    var leap := if IsLeapYear(y) then 1 else 0;
    if m == 1 then 0
    else if m == 2 then 31
    else [59, 90, 120, 151, 181, 212, 243, 273, 304, 334][m - 3] + leap
  }

  /** Days from the first of January of year 0 to the first of January of year `y`. */
  function DaysBeforeYear(y: nat): int {
    if y == 0 then 0 else DaysBeforeYear(y - 1) + DaysInYear(y - 1)
  }

  /** A serial day number: consecutive calendar days get consecutive numbers. */
  function DayNumber(d: Date): int
    requires Valid(d) && d.year >= 0
  {
    DaysBeforeYear(d.year) + DaysBeforeMonth(d.year, d.month) + d.day - 1
  }

  lemma NextIsOneDayLater(d: Date)
    requires Valid(d) && d.year >= 0
    ensures DayNumber(Next(d)) == DayNumber(d) + 1
  {
    if d.day == DaysInMonth(d.year, d.month) && d.month == 12 {
      assert DaysBeforeYear(d.year + 1) == DaysBeforeYear(d.year) + DaysInYear(d.year);
    }
  }

  /** The interval holds one day per unit of day-number difference, plus one. */
  lemma {:induction false} DaysBetweenCount(start: Date, end: Date)
    requires Valid(start) && Valid(end) && start.year >= 0
    requires AtOrBefore(start, end)
    ensures |DaysBetween(start, end)| == DayNumber(end) - DayNumber(start) + 1
    decreases Rank(end) - Rank(start)
  {
    RankMonotone(start, end);
    RankMonotone(start, Next(start));
    NextIsOneDayLater(start);
    assert DaysBetween(start, end) == [start] + DaysBetween(Next(start), end);
    if start != end {
      DaysBetweenCount(Next(start), end);
    }
  }

  /** Months counted from January of year 0. */
  function MonthIndex(ym: YearMonth): int {
    ym.year * 12 + ym.month - 1
  }

  function PrevMonth(ym: YearMonth): YearMonth {
    if ym.month == 1 then YearMonth(ym.year - 1, 12) else YearMonth(ym.year, ym.month - 1)
  }

  /** The month `i` months before `ym`, borrowing from the year at January. */
  function SubMonths(ym: YearMonth, i: nat): YearMonth {
    if i == 0 then ym else PrevMonth(SubMonths(ym, i - 1))
  }

  lemma {:induction false} SubMonthsIndex(ym: YearMonth, i: nat)
    requires ValidMonth(ym)
    ensures ValidMonth(SubMonths(ym, i))
    ensures MonthIndex(SubMonths(ym, i)) == MonthIndex(ym) - i
  {
    if i > 0 {
      SubMonthsIndex(ym, i - 1);
    }
  }
}

=== FILE: digits.dfy ===
/** Decimal digits: the characters, the number a digit string denotes, and
    the shortest decimal form of a natural number (`Number.prototype.toString`
    on a whole number). */
module Digits {

  function Digit(n: int): char
    requires 0 <= n <= 9
  {
    ('0' as int + n) as char
  }

  predicate IsDigit(c: char) {
    '0' <= c <= '9'
  }

  function DigitValue(c: char): int
    requires IsDigit(c)
  {
    c as int - '0' as int
  }

  predicate AllDigits(s: string) {
    forall i :: 0 <= i < |s| ==> IsDigit(s[i])
  }

  /** The number a string of decimal digits denotes. */
  function Value(s: string): nat
    requires AllDigits(s)
  {
    if |s| == 0 then 0 else Value(s[..|s| - 1]) * 10 + DigitValue(s[|s| - 1])
  }

  lemma DigitRoundTrip(n: int)
    requires 0 <= n <= 9
    ensures IsDigit(Digit(n)) && DigitValue(Digit(n)) == n
  {
  }

  /** The decimal form of `n`, without leading zeros. */
  function NatToString(n: nat): (s: string)
    ensures |s| > 0 && AllDigits(s)
  {
    if n < 10 then [Digit(n)] else NatToString(n / 10) + [Digit(n % 10)]
  }

  lemma {:induction false} NatToStringValue(n: nat)
    ensures Value(NatToString(n)) == n
  {
    var s := NatToString(n);
    DigitRoundTrip(n % 10);
    if n < 10 {
      assert s[..0] == [];
    } else {
      NatToStringValue(n / 10);
      assert s[..|s| - 1] == NatToString(n / 10);
    }
  }
}

=== FILE: entry.dfy ===
/** The entry form's submit handler (components/AddEntryModal.tsx): the rate
    text is coerced to a number, then a single day or every day of an
    inclusive interval becomes one record sharing the form's attributes, and
    the batch is handed to the store's upsert. */
module Entry {
  import opened Wrappers
  import opened Calendar
  import opened Digits
  import opened Types
  import opened Records
  import Store

  /** The white space `parseFloat` skips before the number: the line
      terminators and the white space characters of ECMAScript, the latter
      being the Unicode space separators plus tab, vertical tab, form feed
      and the byte order mark. */
  predicate IsSpace(c: char) {
    c == ' ' || c == '\t' || c == '\n' || c == '\r' || c == '\U{000B}' || c == '\U{000C}'
    || c == '\U{00A0}' || c == '\U{1680}' || ('\U{2000}' <= c <= '\U{200A}')
    || c == '\U{2028}' || c == '\U{2029}' || c == '\U{202F}' || c == '\U{205F}'
    || c == '\U{3000}' || c == '\U{FEFF}'
  }

  function SkipSpace(s: string): (t: string)
    ensures |t| <= |s| && t == s[|s| - |t|..]
    ensures |t| > 0 ==> !IsSpace(t[0])
  {
    if |s| > 0 && IsSpace(s[0]) then SkipSpace(s[1..]) else s
  }

  /** Length of the run of digits at the start of `s`. */
  function DigitRun(s: string): (n: nat)
    ensures n <= |s| && AllDigits(s[..n])
    ensures n < |s| ==> !IsDigit(s[n])
  {
    if |s| > 0 && IsDigit(s[0]) then
      var m := DigitRun(s[1..]);
      assert s[..m + 1] == [s[0]] + s[1..][..m];
      m + 1
    else 0
  }

  function Pow10(k: nat): (p: nat)
    ensures p >= 1
  {
    if k == 0 then 1 else 10 * Pow10(k - 1)
  }

  /** `parseFloat`: the longest prefix of the form [sign] digits [. digits]
      after leading white space, or None (NaN) when that prefix holds no digit. */
  function ParseFloat(text: string): (r: Option<real>)
    ensures r.Some? && IsNegative(text) ==> r.value <= 0.0
    ensures r.Some? && !IsNegative(text) ==> r.value >= 0.0
  {
    var u := UnsignedPart(text);
    var whole := u[..DigitRun(u)];
    var frac := FractionDigits(u);
    if |whole| == 0 && |frac| == 0 then None
    else
      var v := Magnitude(whole, frac);
      Some(if IsNegative(text) then -v else v)
  }

  /** There is no number exactly when, after the white space and the sign,
      the text starts neither with a digit nor with a point and a digit. */
  lemma NoNumberIff(text: string)
    ensures var u := UnsignedPart(text);
      ParseFloat(text).None?
      <==> (|u| == 0 || !IsDigit(u[0])) && !(|u| >= 2 && u[0] == '.' && IsDigit(u[1]))
  {
  }

  /** `e` or `E`, which in `parseFloat` would start an exponent. The model
      reads no exponent, so the value lemmas below exclude a tail starting
      with one. */
  predicate IsExponentMark(c: char) {
    c == 'e' || c == 'E'
  }

  /** The value of `whole.frac`. */
  function Magnitude(whole: string, frac: string): (v: real)
    requires AllDigits(whole) && AllDigits(frac)
    ensures v >= 0.0
    ensures |frac| == 0 ==> v == Value(whole) as real
  {
    Value(whole) as real + Value(frac) as real / Pow10(|frac|) as real
  }

  predicate IsNegative(text: string) {
    var t := SkipSpace(text);
    |t| > 0 && t[0] == '-'
  }

  /** What follows the white space and the optional sign. */
  function UnsignedPart(text: string): string {
    var t := SkipSpace(text);
    if |t| > 0 && (t[0] == '-' || t[0] == '+') then t[1..] else t
  }

  /** The digits after a decimal point that directly follows the whole part. */
  function FractionDigits(u: string): (f: string)
    ensures AllDigits(f)
  {
    var rest := u[DigitRun(u)..];
    if |rest| > 0 && rest[0] == '.' then rest[1..][..DigitRun(rest[1..])] else []
  }

  /** `parseFloat(rate) || 0`: text without a number gives 0, and the input is
      never rejected for its rate. */
  function ParseRate(text: string): (rate: real)
    ensures ParseFloat(text).None? ==> rate == 0.0
    ensures ParseFloat(text).Some? ==> rate == ParseFloat(text).value
    ensures (forall i :: 0 <= i < |text| ==> !IsDigit(text[i])) ==> rate == 0.0
  {
    NoDigitsNoNumber(text);
    match ParseFloat(text)
    case None => 0.0
    case Some(v) => v
  }

  lemma NoDigitsNoNumber(text: string)
    ensures (forall i :: 0 <= i < |text| ==> !IsDigit(text[i])) ==> ParseFloat(text).None?
  {
    if forall i :: 0 <= i < |text| ==> !IsDigit(text[i]) {
      var u := UnsignedPart(text);
      var t := SkipSpace(text);
      assert forall i :: 0 <= i < |u| ==> u[i] in text by {
        assert forall i :: 0 <= i < |t| ==> t[i] == text[|text| - |t| + i];
      }
      assert |u| > 0 ==> !IsDigit(u[0]);
      assert |u| > 1 ==> !IsDigit(u[1]);
      NoNumberIff(text);
    }
  }

  /** A whole number written in decimal and followed by anything that cannot
      continue a number reads back as that number; in particular the text
      `100` the form starts with reads as 100. */
  lemma ParseRateOfWholeNumber(n: nat, tail: string)
    requires |tail| == 0 || (!IsDigit(tail[0]) && tail[0] != '.' && !IsExponentMark(tail[0]))
    ensures ParseRate(NatToString(n) + tail) == n as real
  {
    NatToStringValue(n);
    ParseFloatOfDigits(NatToString(n), tail);
  }

  /** A decimal `whole.frac` followed by anything that starts with neither a
      digit nor an exponent mark reads as its magnitude: whole plus frac
      tenths, hundredths, and so on. */
  lemma ParseFloatOfDecimal(whole: string, frac: string, tail: string)
    requires AllDigits(whole) && AllDigits(frac) && |whole| + |frac| > 0
    requires |tail| == 0 || (!IsDigit(tail[0]) && !IsExponentMark(tail[0]))
    ensures ParseFloat(whole + "." + frac + tail) == Some(Magnitude(whole, frac))
  {
    var rest := "." + frac + tail;
    var text := whole + rest;
    assert whole + "." + frac + tail == text;
    DecimalWhole(whole, rest);
    var u := UnsignedPart(text);
    DecimalFraction(u, whole, frac, tail);
    assert u[..DigitRun(u)] == whole && FractionDigits(u) == frac;
  }

  lemma DecimalWhole(whole: string, rest: string)
    requires AllDigits(whole) && |rest| > 0 && rest[0] == '.'
    ensures UnsignedPart(whole + rest) == whole + rest && !IsNegative(whole + rest)
    ensures DigitRun(whole + rest) == |whole|
  {
    if |whole| > 0 {
      UnsignedDigits(whole, rest);
    } else {
      var text := whole + rest;
      assert text == rest && !IsSpace(text[0]) && !IsDigit(text[0]);
      assert SkipSpace(text) == text;
    }
  }

  lemma DecimalFraction(u: string, whole: string, frac: string, tail: string)
    requires AllDigits(whole) && AllDigits(frac)
    requires |tail| == 0 || !IsDigit(tail[0])
    requires u == whole + ("." + frac + tail) && DigitRun(u) == |whole|
    ensures u[..DigitRun(u)] == whole && FractionDigits(u) == frac
  {
    var rest := "." + frac + tail;
    assert u[DigitRun(u)..] == rest;
    assert rest[1..] == frac + tail;
    WholeDigitRun(frac, tail);
    assert (frac + tail)[..|frac|] == frac;
  }

  /** The usual entry of the two-decimal rate field: a whole number, a point
      and the cents read as that amount. */
  lemma ParseRateOfDecimal(n: nat, frac: string, tail: string)
    requires AllDigits(frac)
    requires |tail| == 0 || (!IsDigit(tail[0]) && !IsExponentMark(tail[0]))
    ensures ParseRate(NatToString(n) + "." + frac + tail)
         == n as real + Value(frac) as real / Pow10(|frac|) as real
  {
    NatToStringValue(n);
    ParseFloatOfDecimal(NatToString(n), frac, tail);
  }

  /** A minus sign negates the number that follows it. */
  lemma ParseFloatNegated(t: string)
    requires |t| == 0 || (!IsSpace(t[0]) && t[0] != '-' && t[0] != '+')
    ensures ParseFloat("-" + t) == match ParseFloat(t) case None => None case Some(v) => Some(-v)
  {
    MinusParts(t);
    PlainParts(t);
    OppositeNumber("-" + t, t);
  }

  /** A leading plus sign leaves the number that follows it unchanged. */
  lemma ParseFloatPlus(t: string)
    requires |t| == 0 || (!IsSpace(t[0]) && t[0] != '-' && t[0] != '+')
    ensures ParseFloat("+" + t) == ParseFloat(t)
  {
    PlusParts(t);
    PlainParts(t);
    SameNumber("+" + t, t);
  }

  lemma PlusParts(t: string)
    ensures UnsignedPart("+" + t) == t && !IsNegative("+" + t)
  {
    var m := "+" + t;
    assert SkipSpace(m) == m;
    assert m[1..] == t;
  }

  lemma MinusParts(t: string)
    ensures UnsignedPart("-" + t) == t && IsNegative("-" + t)
  {
    var m := "-" + t;
    assert SkipSpace(m) == m;
    assert m[1..] == t;
  }

  lemma PlainParts(t: string)
    requires |t| == 0 || (!IsSpace(t[0]) && t[0] != '-' && t[0] != '+')
    ensures UnsignedPart(t) == t && !IsNegative(t)
  {
    assert SkipSpace(t) == t;
  }

  lemma OppositeNumber(a: string, b: string)
    requires UnsignedPart(a) == UnsignedPart(b) && IsNegative(a) && !IsNegative(b)
    ensures ParseFloat(a) == match ParseFloat(b) case None => None case Some(v) => Some(-v)
  {
  }

  /** Leading white space does not change the number read. */
  lemma ParseFloatSkipsSpace(c: char, t: string)
    requires IsSpace(c)
    ensures ParseFloat([c] + t) == ParseFloat(t)
  {
    var m := [c] + t;
    assert m[1..] == t;
    assert SkipSpace(m) == SkipSpace(t);
    SameParts(m, t);
  }

  lemma SameParts(a: string, b: string)
    requires SkipSpace(a) == SkipSpace(b)
    ensures ParseFloat(a) == ParseFloat(b)
  {
    SameUnsigned(a, b);
    SameSign(a, b);
    SameNumber(a, b);
  }

  lemma SameUnsigned(a: string, b: string)
    requires SkipSpace(a) == SkipSpace(b)
    ensures UnsignedPart(a) == UnsignedPart(b)
  {
  }

  lemma SameSign(a: string, b: string)
    requires SkipSpace(a) == SkipSpace(b)
    ensures IsNegative(a) == IsNegative(b)
  {
  }

  lemma SameNumber(a: string, b: string)
    requires UnsignedPart(a) == UnsignedPart(b) && IsNegative(a) == IsNegative(b)
    ensures ParseFloat(a) == ParseFloat(b)
  {
  }

  lemma ParseFloatOfDigits(s: string, tail: string)
    requires |s| > 0 && AllDigits(s)
    requires |tail| == 0 || (!IsDigit(tail[0]) && tail[0] != '.' && !IsExponentMark(tail[0]))
    ensures ParseFloat(s + tail) == Some(Value(s) as real)
  {
    var text := s + tail;
    UnsignedDigits(s, tail);
    var u := UnsignedPart(text);
    assert u[..DigitRun(u)] == s;
    assert FractionDigits(u) == [];
  }

  lemma UnsignedDigits(s: string, tail: string)
    requires |s| > 0 && AllDigits(s)
    requires |tail| == 0 || !IsDigit(tail[0])
    ensures UnsignedPart(s + tail) == s + tail && !IsNegative(s + tail)
    ensures DigitRun(s + tail) == |s| && (s + tail)[|s|..] == tail
  {
    var text := s + tail;
    assert text[0] == s[0];
    assert !IsSpace(text[0]);
    assert SkipSpace(text) == text;
    WholeDigitRun(s, tail);
  }

  lemma {:induction false} WholeDigitRun(s: string, tail: string)
    requires AllDigits(s)
    requires |tail| == 0 || !IsDigit(tail[0])
    ensures DigitRun(s + tail) == |s|
  {
    if |s| > 0 {
      assert (s + tail)[1..] == s[1..] + tail;
      WholeDigitRun(s[1..], tail);
    } else {
      assert s + tail == tail;
    }
  }

  datatype EntryMode = Single | Batch

  /** The form's fields at submit time. The date inputs are required
      `type="date"` fields, so both hold calendar days. */
  datatype EntryForm = EntryForm(
    mode: EntryMode,
    date: Date,
    endDate: Date,
    rateText: string,
    location: Location,
    status: Status,
    notes: string)

  datatype EntryError = InvalidRange

  /** Everything a produced record takes from the form. */
  predicate FromForm(d: WorkDay, form: EntryForm, now: int) {
    d.location == form.location && d.status == form.status
    && d.rate == ParseRate(form.rateText) && d.notes == Some(form.notes)
    && d.createdAt == now
  }

  /** The record the form makes for one day: the given id and day, with
      everything else taken from the form. */
  function Stamp(form: EntryForm, rate: real, id: Id, date: Date, now: int): (d: WorkDay)
    ensures d.id == id && d.date == date && d.rate == rate
    ensures rate == ParseRate(form.rateText) ==> FromForm(d, form, now)
  {
    WorkDay(id, date, form.location, form.status, rate, Some(form.notes), now)
  }

  /** One record per day, in the order of the days, the k-th taking the
      k-th identifier of the supply. */
  function StampAll(form: EntryForm, rate: real, days: seq<Date>, newId: nat -> Id, now: int): (r: seq<WorkDay>)
    ensures |r| == |days|
    ensures forall k :: 0 <= k < |r| ==> r[k].id == newId(k) && r[k].date == days[k] && r[k].rate == rate
    ensures rate == ParseRate(form.rateText) ==> forall k :: 0 <= k < |r| ==> FromForm(r[k], form, now)
  {
    seq(|days|, k requires 0 <= k < |days| => Stamp(form, rate, newId(k), days[k], now))
  }

  /** The records of one submit. `newId` is the identifier supply (one call
      per record, in order) and `now` the creation instant. In batch mode an
      interval that cannot be walked (an invalid day, or an end before the
      start) is an error and produces nothing. */
  function BuildEntries(form: EntryForm, newId: nat -> Id, now: int): (r: Result<seq<WorkDay>, EntryError>)
    ensures form.mode == Single ==> r.Ok? && |r.value| == 1 && r.value[0].date == form.date
    ensures form.mode == Batch ==>
              (r.Err? <==> !Valid(form.date) || !Valid(form.endDate) || Before(form.endDate, form.date))
    ensures r.Ok? ==> forall k :: 0 <= k < |r.value| ==> FromForm(r.value[k], form, now) && r.value[k].id == newId(k)
    ensures r.Ok? && form.mode == Batch ==>
              |r.value| > 0 && r.value[0].date == form.date && r.value[|r.value| - 1].date == form.endDate
              && (forall k :: 0 <= k < |r.value| ==>
                    Valid(r.value[k].date)
                    && AtOrBefore(form.date, r.value[k].date) && AtOrBefore(r.value[k].date, form.endDate))
              && forall k :: 0 <= k < |r.value| - 1 ==> r.value[k + 1].date == Next(r.value[k].date)
  {
    var rate := ParseRate(form.rateText);
    match form.mode
    case Single =>
      Ok([Stamp(form, rate, newId(0), form.date, now)])
    case Batch =>
      if !Valid(form.date) || !Valid(form.endDate) || Before(form.endDate, form.date) then Err(InvalidRange)
      else
        Ok(StampAll(form, rate, DaysBetween(form.date, form.endDate), newId, now))
  }

  /** A batch holds a record for a day exactly when the day lies in the
      interval, both ends included. */
  lemma BatchCoversInterval(form: EntryForm, newId: nat -> Id, now: int, x: Date)
    requires form.mode == Batch && BuildEntries(form, newId, now).Ok?
    requires Valid(x)
    ensures x in DatesOf(BuildEntries(form, newId, now).value)
        <==> AtOrBefore(form.date, x) && AtOrBefore(x, form.endDate)
  {
    var r := BuildEntries(form, newId, now).value;
    var days := DaysBetween(form.date, form.endDate);
    assert forall k :: 0 <= k < |r| ==> r[k].date == days[k];
    DaysBetweenComplete(form.date, form.endDate, x);
    if x in days {
      var k :| 0 <= k < |days| && days[k] == x;
      assert r[k].date == x;
    }
  }

  /** A batch holds one record per day: the day-number difference plus one. */
  lemma BatchCount(form: EntryForm, newId: nat -> Id, now: int)
    requires form.mode == Batch && BuildEntries(form, newId, now).Ok?
    requires form.date.year >= 0
    ensures |BuildEntries(form, newId, now).value| == DayNumber(form.endDate) - DayNumber(form.date) + 1
  {
    DaysBetweenCount(form.date, form.endDate);
  }

  /** The days of a submit are pairwise distinct. */
  lemma EntriesHaveUniqueDates(form: EntryForm, newId: nat -> Id, now: int)
    requires BuildEntries(form, newId, now).Ok?
    ensures UniqueDates(BuildEntries(form, newId, now).value)
  {
    if form.mode == Batch {
      var r := BuildEntries(form, newId, now).value;
      var days := DaysBetween(form.date, form.endDate);
      DaysBetweenAscending(form.date, form.endDate);
      forall i, j | 0 <= i < j < |r|
        ensures r[i].date != r[j].date
      {
        assert r[i].date == days[i] && r[j].date == days[j];
        BeforeIsStrictTotalOrder(days[i], days[j], days[i]);
      }
    }
  }

  /** With a supply that never repeats, the records of a submit have pairwise
      distinct ids. */
  lemma EntriesHaveDistinctIds(form: EntryForm, newId: nat -> Id, now: int)
    requires forall i: nat, j: nat :: newId(i) == newId(j) ==> i == j
    requires BuildEntries(form, newId, now).Ok?
    ensures var r := BuildEntries(form, newId, now).value;
      forall i, j :: 0 <= i < j < |r| ==> r[i].id != r[j].id
  {
  }

  /** A one-week batch: seven records, one per day. */
  lemma FirstWeekOf2024(newId: nat -> Id, now: int)
    ensures var form := EntryForm(Batch, Date(2024, 1, 1), Date(2024, 1, 7), "100", Office, Pending, "");
      BuildEntries(form, newId, now).Ok? && |BuildEntries(form, newId, now).value| == 7
  {
    var form := EntryForm(Batch, Date(2024, 1, 1), Date(2024, 1, 7), "100", Office, Pending, "");
    BatchCount(form, newId, now);
  }

  /** Submitting: on success the batch is upserted into the store, then the
      form closes; on an invalid interval nothing is saved. */
  function Submit(st: Store.Store, form: EntryForm, newId: nat -> Id, now: int): (r: Store.Store)
    ensures BuildEntries(form, newId, now).Err? ==> r == st
    ensures BuildEntries(form, newId, now).Ok? ==> r == Store.AddDays(st, BuildEntries(form, newId, now).value)
    ensures BuildEntries(form, newId, now).Ok? ==>
              forall x :: x in r.days <==>
                (x in st.days && x.date !in DatesOf(BuildEntries(form, newId, now).value))
                || x in BuildEntries(form, newId, now).value
  {
    match BuildEntries(form, newId, now)
    case Err(_) => st
    case Ok(batch) => Store.AddDays(st, batch)
  }

  /** Saving a batch leaves exactly one record for each day of the interval,
      carrying the form's attributes. */
  lemma SubmitBatchOnePerDay(st: Store.Store, form: EntryForm, newId: nat -> Id, now: int, x: Date)
    requires form.mode == Batch && BuildEntries(form, newId, now).Ok?
    requires Valid(x) && AtOrBefore(form.date, x) && AtOrBefore(x, form.endDate)
    ensures var days := Submit(st, form, newId, now).days;
      exists i :: (0 <= i < |days| && days[i].date == x && FromForm(days[i], form, now)
                   && forall j :: 0 <= j < |days| && days[j].date == x ==> j == i)
  {
    var batch := BuildEntries(form, newId, now).value;
    var days := Submit(st, form, newId, now).days;
    BatchCoversInterval(form, newId, now, x);
    EntriesHaveUniqueDates(form, newId, now);
    var k :| 0 <= k < |batch| && batch[k].date == x;
    var b := batch[k];
    Store.AddDaysReplaces(st, batch, b);
    var i :| 0 <= i < |days| && days[i] == b;
    forall j | 0 <= j < |days| && days[j].date == x
      ensures j == i
    {
      assert days[j] in days;
      if j != i {
        TwoIndicesOrdered(days, i, j);
      }
    }
  }
}

=== FILE: isodate.dfy ===
/** The ISO `yyyy-MM-dd` and `yyyy-MM` strings under which days and months
    are stored, compared and matched. The lemmas here justify modelling the
    store's string comparisons as comparisons of calendar days: formatting
    is a bijection onto well-formed strings, string order is chronological
    order, and the month string is a prefix of exactly the days of that month. */
module IsoDate {
  import opened Wrappers
  import opened Calendar
  import opened Digits

  /** A day whose ISO form has a four-digit year. */
  predicate Formattable(d: Date) {
    Valid(d) && 0 <= d.year <= 9999
  }

  predicate FormattableMonth(ym: YearMonth) {
    ValidMonth(ym) && 0 <= ym.year <= 9999
  }

  /** Two digits, zero-padded. */
  function Pad2(n: int): (s: string)
    requires 0 <= n <= 99
    ensures |s| == 2 && AllDigits(s)
  {
    [Digit(n / 10), Digit(n % 10)]
  }

  /** Four digits, zero-padded. */
  function Pad4(n: int): (s: string)
    requires 0 <= n <= 9999
    ensures |s| == 4 && AllDigits(s)
  {
    Pad2(n / 100) + Pad2(n % 100)
  }

  /** The `yyyy-MM` form of a month. */
  function FormatMonth(ym: YearMonth): (s: string)
    requires FormattableMonth(ym)
    ensures |s| == 7
  {
    Pad4(ym.year) + "-" + Pad2(ym.month)
  }

  /** The `yyyy-MM-dd` form of a day. */
  function Format(d: Date): (s: string)
    requires Formattable(d)
    ensures |s| == 10
  {
    FormatMonth(MonthOf(d)) + "-" + Pad2(d.day)
  }

  /** Reads a `yyyy-MM-dd` string back; anything else, or a day the calendar
      does not have, gives None. */
  function Parse(s: string): Option<Date> {
    if |s| == 10 && s[4] == '-' && s[7] == '-'
       && AllDigits(s[..4]) && AllDigits(s[5..7]) && AllDigits(s[8..])
    then
      var d := Date(Value(s[..4]), Value(s[5..7]), Value(s[8..]));
      if Valid(d) then Some(d) else None
    else None
  }

  lemma Value2(t: string)
    requires |t| == 2 && AllDigits(t)
    ensures Value(t) == DigitValue(t[0]) * 10 + DigitValue(t[1])
  {
    var h := t[..1];
    assert h[..0] == [] && h[0] == t[0];
    assert Value(h) == DigitValue(t[0]);
  }

  /** Appending two digits shifts the value by two decimal places. */
  lemma ValueAppend2(u: string, t: string)
    requires AllDigits(u) && AllDigits(t) && |t| == 2
    ensures AllDigits(u + t)
    ensures Value(u + t) == Value(u) * 100 + Value(t)
  {
    var w := u + t;
    assert w[..|w| - 1] == u + [t[0]];
    assert (u + [t[0]])[..|u|] == u;
    Value2(t);
  }

  lemma Pad2Value(n: int)
    requires 0 <= n <= 99
    ensures Value(Pad2(n)) == n
  {
    Value2(Pad2(n));
    DigitRoundTrip(n / 10);
    DigitRoundTrip(n % 10);
  }

  lemma Pad4Value(n: int)
    requires 0 <= n <= 9999
    ensures Value(Pad4(n)) == n
  {
    ValueAppend2(Pad2(n / 100), Pad2(n % 100));
    Pad2Value(n / 100);
    Pad2Value(n % 100);
  }

  /** Parsing the formatted day gives the day back. */
  lemma ParseFormat(d: Date)
    requires Formattable(d)
    ensures Parse(Format(d)) == Some(d)
  {
    var s := Format(d);
    assert s[..4] == Pad4(d.year);
    assert s[5..7] == Pad2(d.month);
    assert s[8..] == Pad2(d.day);
    Pad4Value(d.year);
    Pad2Value(d.month);
    Pad2Value(d.day);
  }

  lemma DigitsOfValue2(s: string)
    requires |s| == 2 && AllDigits(s)
    ensures Value(s) <= 99 && Pad2(Value(s)) == s
  {
    Value2(s);
    var a, b := DigitValue(s[0]), DigitValue(s[1]);
    assert (a * 10 + b) / 10 == a;
    assert (a * 10 + b) % 10 == b;
  }

  lemma DigitsOfValue4(s: string)
    requires |s| == 4 && AllDigits(s)
    ensures Value(s) <= 9999 && Pad4(Value(s)) == s
  {
    assert s == s[..2] + s[2..];
    ValueAppend2(s[..2], s[2..]);
    DigitsOfValue2(s[..2]);
    DigitsOfValue2(s[2..]);
    var a, b := Value(s[..2]), Value(s[2..]);
    assert (a * 100 + b) / 100 == a;
    assert (a * 100 + b) % 100 == b;
  }

  /** A string that parses is exactly the formatted form of what it denotes. */
  lemma FormatParse(s: string)
    requires Parse(s).Some?
    ensures Formattable(Parse(s).value)
    ensures Format(Parse(s).value) == s
  {
    DigitsOfValue4(s[..4]);
    DigitsOfValue2(s[5..7]);
    DigitsOfValue2(s[8..]);
    var d := Parse(s).value;
    assert s == s[..4] + "-" + s[5..7] + "-" + s[8..];
  }

  /** Code-unit lexicographic order on strings, the order `localeCompare`
      gives on these all-ASCII digit-and-dash strings. */
  predicate LexLess(a: string, b: string)
    decreases |a|
  {
    if |a| == 0 then |b| > 0
    else if |b| == 0 then false
    else a[0] < b[0] || (a[0] == b[0] && LexLess(a[1..], b[1..]))
  }

  lemma {:induction false} LexIrreflexive(a: string)
    ensures !LexLess(a, a)
    decreases |a|
  {
    if |a| > 0 {
      LexIrreflexive(a[1..]);
    }
  }

  /** Comparing two strings made of blocks of equal width compares the
      first blocks, then the rest. */
  lemma {:induction false} LexConcat(x1: string, x2: string, y1: string, y2: string)
    requires |x1| == |y1|
    ensures LexLess(x1 + x2, y1 + y2) <==> LexLess(x1, y1) || (x1 == y1 && LexLess(x2, y2))
    decreases |x1|
  {
    if |x1| == 0 {
      assert x1 + x2 == x2 && y1 + y2 == y2;
    } else {
      assert (x1 + x2)[1..] == x1[1..] + x2;
      assert (y1 + y2)[1..] == y1[1..] + y2;
      LexConcat(x1[1..], x2, y1[1..], y2);
      if x1[0] == y1[0] && x1[1..] == y1[1..] {
        assert x1 == [x1[0]] + x1[1..] && y1 == [y1[0]] + y1[1..];
      }
      LexIrreflexive(x1[1..]);
    }
  }

  lemma Pad2Order(a: int, b: int)
    requires 0 <= a <= 99 && 0 <= b <= 99
    ensures LexLess(Pad2(a), Pad2(b)) <==> a < b
  {
    LexConcat([Digit(a / 10)], [Digit(a % 10)], [Digit(b / 10)], [Digit(b % 10)]);
    assert Pad2(a) == [Digit(a / 10)] + [Digit(a % 10)];
    assert Pad2(b) == [Digit(b / 10)] + [Digit(b % 10)];
    DigitRoundTrip(a / 10);
    DigitRoundTrip(b / 10);
    DigitRoundTrip(a % 10);
    DigitRoundTrip(b % 10);
  }

  lemma Pad4Order(a: int, b: int)
    requires 0 <= a <= 9999 && 0 <= b <= 9999
    ensures LexLess(Pad4(a), Pad4(b)) <==> a < b
  {
    LexConcat(Pad2(a / 100), Pad2(a % 100), Pad2(b / 100), Pad2(b % 100));
    Pad2Order(a / 100, b / 100);
    Pad2Order(a % 100, b % 100);
    Pad2Value(a / 100);
    Pad2Value(b / 100);
  }

  predicate MonthBefore(a: YearMonth, b: YearMonth) {
    a.year < b.year || (a.year == b.year && a.month < b.month)
  }

  lemma FormatMonthOrder(a: YearMonth, b: YearMonth)
    requires FormattableMonth(a) && FormattableMonth(b)
    ensures LexLess(FormatMonth(a), FormatMonth(b)) <==> MonthBefore(a, b)
  {
    assert FormatMonth(a) == Pad4(a.year) + ("-" + Pad2(a.month));
    assert FormatMonth(b) == Pad4(b.year) + ("-" + Pad2(b.month));
    LexConcat(Pad4(a.year), "-" + Pad2(a.month), Pad4(b.year), "-" + Pad2(b.month));
    LexConcat("-", Pad2(a.month), "-", Pad2(b.month));
    LexIrreflexive("-");
    Pad4Order(a.year, b.year);
    Pad2Order(a.month, b.month);
    Pad4Value(a.year);
    Pad4Value(b.year);
  }

  /** String order on formatted days is chronological order: sorting the
      stored strings sorts the days. */
  lemma FormatOrder(a: Date, b: Date)
    requires Formattable(a) && Formattable(b)
    ensures LexLess(Format(a), Format(b)) <==> Before(a, b)
  {
    assert Format(a) == FormatMonth(MonthOf(a)) + ("-" + Pad2(a.day));
    assert Format(b) == FormatMonth(MonthOf(b)) + ("-" + Pad2(b.day));
    LexConcat(FormatMonth(MonthOf(a)), "-" + Pad2(a.day), FormatMonth(MonthOf(b)), "-" + Pad2(b.day));
    LexConcat("-", Pad2(a.day), "-", Pad2(b.day));
    LexIrreflexive("-");
    FormatMonthOrder(MonthOf(a), MonthOf(b));
    FormatMonthOrder(MonthOf(b), MonthOf(a));
    LexIrreflexive(FormatMonth(MonthOf(a)));
    Pad2Order(a.day, b.day);
  }

  /** Different days have different stored strings. */
  lemma FormatInjective(a: Date, b: Date)
    requires Formattable(a) && Formattable(b)
    ensures Format(a) == Format(b) <==> a == b
  {
    FormatOrder(a, b);
    FormatOrder(b, a);
    LexIrreflexive(Format(a));
  }

  lemma FormatMonthInjective(a: YearMonth, b: YearMonth)
    requires FormattableMonth(a) && FormattableMonth(b)
    ensures FormatMonth(a) == FormatMonth(b) <==> a == b
  {
    FormatMonthOrder(a, b);
    FormatMonthOrder(b, a);
    LexIrreflexive(FormatMonth(a));
  }

  /** A stored day string starts with a `yyyy-MM` month string exactly when
      the day lies in that month. */
  lemma MonthPrefix(ym: YearMonth, d: Date)
    requires FormattableMonth(ym) && Formattable(d)
    ensures FormatMonth(ym) <= Format(d) <==> MonthOf(d) == ym
  {
    var f := Format(d);
    assert f[..7] == FormatMonth(MonthOf(d));
    FormatMonthInjective(ym, MonthOf(d));
  }
}

=== FILE: receipt.dfy ===
/** The receipt (components/ReceiptGenerator.tsx): the records of one month
    or of an inclusive range of days, oldest first, their totals, and the
    strings printed on and naming the exported image. */
module Receipt {
  import opened Wrappers
  import opened Calendar
  import opened IsoDate
  import opened Types
  import opened Seqs
  import opened Records

  /** The period the receipt covers: the `'month'` filter with its `yyyy-MM`
      month, or the `'range'` filter with its first and last day. */
  datatype Period = MonthPeriod(month: YearMonth) | RangePeriod(start: Date, end: Date)

  predicate InPeriod(p: Period, d: Date) {
    match p
    case MonthPeriod(ym) => MonthOf(d) == ym
    case RangePeriod(start, end) => AtOrBefore(start, d) && AtOrBefore(d, end)
  }

  /** The records of the period, sorted oldest first. */
  function SelectDays(all: seq<WorkDay>, p: Period): (r: seq<WorkDay>)
    ensures Sorted(Ascending, r)
    ensures forall x :: multiset(r)[x] == if InPeriod(p, x.date) then multiset(all)[x] else 0
    ensures multiset(r) <= multiset(all)
    ensures p.RangePeriod? && Before(p.end, p.start) ==> r == []
  {
    var chosen := Filter(all, (d: WorkDay) => InPeriod(p, d.date));
    EmptyRange(all, p);
    Sort(Ascending, chosen)
  }

  /** The records of any one date appear on the receipt in their order in
      the list, or not at all when the date lies outside the period. */
  lemma SelectDaysStable(all: seq<WorkDay>, p: Period, day: Date)
    ensures Filter(SelectDays(all, p), OnDate(day))
         == if InPeriod(p, day) then Filter(all, OnDate(day)) else []
  {
    var inPeriod := (d: WorkDay) => InPeriod(p, d.date);
    var chosen := Filter(all, inPeriod);
    assert SelectDays(all, p) == Sort(Ascending, chosen);
    SortIsStable(Ascending, chosen, day);
    if InPeriod(p, day) {
      FilterFilterSub(all, inPeriod, OnDate(day));
    } else {
      FilterFilterNone(all, inPeriod, OnDate(day));
    }
  }

  lemma EmptyRange(all: seq<WorkDay>, p: Period)
    ensures p.RangePeriod? && Before(p.end, p.start) ==>
              Filter(all, (d: WorkDay) => InPeriod(p, d.date)) == []
  {
    var chosen := Filter(all, (d: WorkDay) => InPeriod(p, d.date));
    if p.RangePeriod? && Before(p.end, p.start) && |chosen| > 0 {
      var x := chosen[0].date;
      BeforeIsStrictTotalOrder(p.start, x, p.end);
      BeforeIsStrictTotalOrder(p.end, p.start, x);
    }
  }

  /** The figures printed on the receipt. */
  datatype Summary = Summary(days: seq<WorkDay>, totalDays: int, total: real, pending: real, paid: real)

  function Summarize(all: seq<WorkDay>, p: Period): (r: Summary)
    ensures r.days == SelectDays(all, p)
    ensures r.totalDays == |r.days|
    ensures r.pending + r.paid == r.total
    ensures r.total == SumRates(r.days)
  {
    var days := SelectDays(all, p);
    StatusPartition(days);
    Summary(days, |days|, SumRates(days), StatusSum(days, Pending), StatusSum(days, Paid))
  }

  /** The receipt total is the sum over every record of the period, whatever
      order the list was in. */
  lemma ReceiptTotalOfPeriod(all: seq<WorkDay>, p: Period)
    ensures Summarize(all, p).total == SumRates(Filter(all, (d: WorkDay) => InPeriod(p, d.date)))
  {
    var chosen := Filter(all, (d: WorkDay) => InPeriod(p, d.date));
    SumRatesPermutation(Sort(Ascending, chosen), chosen);
  }

  /** The records of the period with status `st`. */
  function InPeriodWith(p: Period, st: Status): WorkDay -> bool {
    (d: WorkDay) => InPeriod(p, d.date) && d.status == st
  }

  /** The pending and paid amounts of the receipt are the rate sums of the
      period's pending and paid records, whatever order the list was in. */
  lemma ReceiptStatusTotals(all: seq<WorkDay>, p: Period)
    ensures Summarize(all, p).pending == SumRates(Filter(all, InPeriodWith(p, Pending)))
    ensures Summarize(all, p).paid == SumRates(Filter(all, InPeriodWith(p, Paid)))
  {
    PeriodStatusSum(all, p, Pending);
    PeriodStatusSum(all, p, Paid);
  }

  lemma PeriodStatusSum(all: seq<WorkDay>, p: Period, st: Status)
    ensures StatusSum(SelectDays(all, p), st) == SumRates(Filter(all, InPeriodWith(p, st)))
  {
    var a := Filter(SelectDays(all, p), HasStatus(st));
    var b := Filter(all, InPeriodWith(p, st));
    SameStatusRecords(all, p, st);
    SumRatesPermutation(a, b);
  }

  lemma SameStatusRecords(all: seq<WorkDay>, p: Period, st: Status)
    ensures multiset(Filter(SelectDays(all, p), HasStatus(st))) == multiset(Filter(all, InPeriodWith(p, st)))
  {
    var sel := SelectDays(all, p);
    var a := Filter(sel, HasStatus(st));
    var b := Filter(all, InPeriodWith(p, st));
    forall x: WorkDay
      ensures multiset(a)[x] == multiset(b)[x]
    {
      assert multiset(a)[x] == if x.status == st then multiset(sel)[x] else 0;
      assert multiset(sel)[x] == if InPeriod(p, x.date) then multiset(all)[x] else 0;
    }
    assert multiset(a) == multiset(b);
  }

  /** A record is on the month receipt exactly when its stored date string
      starts with the month string. */
  lemma MonthSelectionByPrefix(all: seq<WorkDay>, ym: YearMonth, x: WorkDay)
    requires FormattableMonth(ym) && Formattable(x.date) && x in all
    ensures x in SelectDays(all, MonthPeriod(ym)) <==> FormatMonth(ym) <= Format(x.date)
  {
    MonthPrefix(ym, x.date);
    assert multiset(SelectDays(all, MonthPeriod(ym)))[x] == if MonthOf(x.date) == ym then multiset(all)[x] else 0;
  }

  /** The month or `start / end` shown as the receipt's period. Both ends
      of a range read back from the label. */
  function PeriodLabel(p: Period): (s: string)
    requires p.MonthPeriod? ==> FormattableMonth(p.month)
    requires p.RangePeriod? ==> Formattable(p.start) && Formattable(p.end)
    ensures p.MonthPeriod? ==> |s| == 7
    ensures p.RangePeriod? ==>
              |s| == 23 && s[10..13] == " / " && Parse(s[..10]) == Some(p.start) && Parse(s[13..]) == Some(p.end)
  {
    match p
    case MonthPeriod(ym) => FormatMonth(ym)
    case RangePeriod(start, end) =>
      var s := Format(start) + " / " + Format(end);
      assert s[..10] == Format(start) && s[13..] == Format(end);
      ParseFormat(start);
      ParseFormat(end);
      s
  }

  /** A month label is the stored-string prefix of exactly that month's days. */
  lemma MonthLabelPrefix(ym: YearMonth, d: Date)
    requires FormattableMonth(ym) && Formattable(d)
    ensures PeriodLabel(MonthPeriod(ym)) <= Format(d) <==> MonthOf(d) == ym
  {
    MonthPrefix(ym, d);
  }

  /** Different periods are labelled differently. */
  lemma PeriodLabelInjective(p: Period, q: Period)
    requires p.MonthPeriod? ==> FormattableMonth(p.month)
    requires p.RangePeriod? ==> Formattable(p.start) && Formattable(p.end)
    requires q.MonthPeriod? ==> FormattableMonth(q.month)
    requires q.RangePeriod? ==> Formattable(q.start) && Formattable(q.end)
    ensures PeriodLabel(p) == PeriodLabel(q) <==> p == q
  {
    if PeriodLabel(p) == PeriodLabel(q) && p.MonthPeriod? && q.MonthPeriod? {
      FormatMonthInjective(p.month, q.month);
    }
  }

  /** The name of the downloaded image: the month as the label shows it, or
      the first day, `_a_` and the last day. */
  function FileName(p: Period): (s: string)
    requires p.MonthPeriod? ==> FormattableMonth(p.month)
    requires p.RangePeriod? ==> Formattable(p.start) && Formattable(p.end)
    ensures |s| >= 11 && s[..7] == "Recibo_" && s[|s| - 4..] == ".png"
    ensures p.MonthPeriod? ==> |s| == 18 && s[7..14] == PeriodLabel(p)
    ensures p.RangePeriod? ==>
              |s| == 34 && s[17..20] == "_a_"
              && Parse(s[7..17]) == Some(p.start) && Parse(s[20..30]) == Some(p.end)
  {
    match p
    case MonthPeriod(ym) =>
      var s := "Recibo_" + FormatMonth(ym) + ".png";
      assert s[7..14] == FormatMonth(ym);
      s
    case RangePeriod(start, end) =>
      var s := "Recibo_" + (Format(start) + "_a_" + Format(end)) + ".png";
      assert s[7..17] == Format(start) && s[17..20] == "_a_" && s[20..30] == Format(end);
      ParseFormat(start);
      ParseFormat(end);
      s
  }

  /** Different periods give differently named files. */
  lemma FileNameInjective(p: Period, q: Period)
    requires p.MonthPeriod? ==> FormattableMonth(p.month)
    requires p.RangePeriod? ==> Formattable(p.start) && Formattable(p.end)
    requires q.MonthPeriod? ==> FormattableMonth(q.month)
    requires q.RangePeriod? ==> Formattable(q.start) && Formattable(q.end)
    ensures FileName(p) == FileName(q) <==> p == q
  {
    if FileName(p) == FileName(q) {
      var f := FileName(p);
      match p
      case MonthPeriod(a) =>
        assert q.MonthPeriod?;
        MonthFileName(a, q.month);
      case RangePeriod(s1, e1) =>
        assert q.RangePeriod?;
        RangeFileName(s1, e1, q.start, q.end);
    }
  }

  lemma MonthFileName(a: YearMonth, b: YearMonth)
    requires FormattableMonth(a) && FormattableMonth(b)
    requires FileName(MonthPeriod(a)) == FileName(MonthPeriod(b))
    ensures a == b
  {
    var f := FileName(MonthPeriod(a));
    var g := FileName(MonthPeriod(b));
    assert f[7..14] == FormatMonth(a);
    assert g[7..14] == FormatMonth(b);
    FormatMonthInjective(a, b);
  }

  lemma RangeFileName(s1: Date, e1: Date, s2: Date, e2: Date)
    requires Formattable(s1) && Formattable(e1) && Formattable(s2) && Formattable(e2)
    requires FileName(RangePeriod(s1, e1)) == FileName(RangePeriod(s2, e2))
    ensures s1 == s2 && e1 == e2
  {
    var f := FileName(RangePeriod(s1, e1));
    var g := FileName(RangePeriod(s2, e2));
    assert f[7..17] == Format(s1) && f[20..30] == Format(e1);
    assert g[7..17] == Format(s2) && g[20..30] == Format(e2);
    FormatInjective(s1, s2);
    FormatInjective(e1, e2);
  }

  /** The receipt's short location column. */
  function LocationCode(l: Location): (s: string)
    ensures |s| == 4
    ensures s == "Casa" <==> l == Home
    ensures s == "Ofic" <==> l == Office
    ensures s == "Otro" <==> l == Other
  {
    match l
    case Home => "Casa"
    case Office => "Ofic"
    case Other => "Otro"
  }

  /** The receipt's short status column. */
  function StatusCode(st: Status): (s: string)
    ensures s == "OK" <==> st == Paid
    ensures s == "PDT" <==> st == Pending
  {
    match st
    case Paid => "OK"
    case Pending => "PDT"
  }

  /** Two March records, one pending and one paid. */
  lemma MarchExample(a: WorkDay, b: WorkDay)
    requires a.date == Date(2024, 3, 1) && a.rate == 100.0 && a.status == Pending
    requires b.date == Date(2024, 3, 15) && b.rate == 200.0 && b.status == Paid
    ensures Summarize([a, b], MonthPeriod(YearMonth(2024, 3))).days == [a, b]
    ensures Summarize([a, b], MonthPeriod(YearMonth(2024, 3))).total == 300.0
  {
    var p := MonthPeriod(YearMonth(2024, 3));
    var chosen := Filter([a, b], (d: WorkDay) => InPeriod(p, d.date));
    assert [a, b][1..] == [b];
    assert chosen == [a, b];
    assert Sorted(Ascending, [a, b]);
    SortOfSorted(Ascending, [a, b]);
    assert [b][1..] == [];
    assert SumRates([b]) == 200.0;
  }
}

=== FILE: records.dfy ===
/** Facts about sequences of work-day records shared by the store, the
    views and the receipt: date ordering and the stable sort, the
    one-record-per-date convention, and sums of rates. */
module Records {
  import opened Calendar
  import opened Types
  import opened Seqs

  /** `Descending` is the store's most-recent-first order; `Ascending` is
      the receipt's oldest-first order. */
  datatype Direction = Ascending | Descending

  /** `a` may stand before `b` in a list sorted in direction `dir`. */
  predicate Precedes(dir: Direction, a: WorkDay, b: WorkDay) {
    match dir
    case Ascending => AtOrBefore(a.date, b.date)
    case Descending => AtOrBefore(b.date, a.date)
  }

  predicate Sorted(dir: Direction, s: seq<WorkDay>) {
    forall i, j :: 0 <= i < j < |s| ==> Precedes(dir, s[i], s[j])
  }

  /** Date order in either direction is a total preorder. */
  lemma PrecedesTotalPreorder(dir: Direction, a: WorkDay, b: WorkDay, c: WorkDay)
    ensures Precedes(dir, a, b) || Precedes(dir, b, a)
    ensures Precedes(dir, a, b) && Precedes(dir, b, c) ==> Precedes(dir, a, c)
  {
    BeforeIsStrictTotalOrder(a.date, b.date, c.date);
    BeforeIsStrictTotalOrder(c.date, b.date, a.date);
  }

  lemma PrependSorted(dir: Direction, y: WorkDay, t: seq<WorkDay>)
    requires Sorted(dir, t)
    requires forall z :: z in t ==> Precedes(dir, y, z)
    ensures Sorted(dir, [y] + t)
  {
    var r := [y] + t;
    forall i, j | 0 <= i < j < |r|
      ensures Precedes(dir, r[i], r[j])
    {
      if i == 0 {
        assert r[j] == t[j - 1] && t[j - 1] in t;
      } else {
        assert r[i] == t[i - 1] && r[j] == t[j - 1];
      }
    }
  }

  /** Puts `x` before the first element it may precede, so that among
      records of the same date `x` stays first. */
  function Insert(dir: Direction, x: WorkDay, s: seq<WorkDay>): (r: seq<WorkDay>)
    requires Sorted(dir, s)
    ensures Sorted(dir, r)
    ensures multiset(r) == multiset(s) + multiset{x}
  {
    if |s| == 0 || Precedes(dir, x, s[0]) then
      InsertFirst(dir, x, s);
      [x] + s
    else
      assert s == [s[0]] + s[1..];
      var t := Insert(dir, x, s[1..]);
      InsertLater(dir, x, s, t);
      [s[0]] + t
  }

  lemma InsertFirst(dir: Direction, x: WorkDay, s: seq<WorkDay>)
    requires Sorted(dir, s)
    requires |s| == 0 || Precedes(dir, x, s[0])
    ensures Sorted(dir, [x] + s)
  {
    forall z | z in s
      ensures Precedes(dir, x, z)
    {
      var k :| 0 <= k < |s| && s[k] == z;
      if k > 0 {
        PrecedesTotalPreorder(dir, x, s[0], z);
      }
    }
    PrependSorted(dir, x, s);
  }

  lemma InsertLater(dir: Direction, x: WorkDay, s: seq<WorkDay>, t: seq<WorkDay>)
    requires Sorted(dir, s) && |s| > 0 && !Precedes(dir, x, s[0])
    requires Sorted(dir, t) && multiset(t) == multiset(s[1..]) + multiset{x}
    ensures Sorted(dir, [s[0]] + t)
  {
    forall z | z in t
      ensures Precedes(dir, s[0], z)
    {
      assert z in multiset(t);
      if z == x {
        PrecedesTotalPreorder(dir, x, s[0], x);
      } else {
        assert z in multiset(s[1..]);
        var k :| 0 <= k < |s[1..]| && s[1..][k] == z;
        assert s[k + 1] == z;
      }
    }
    PrependSorted(dir, s[0], t);
  }

  /** A stable sort by date, as `Array.prototype.sort` with a date comparator. */
  function Sort(dir: Direction, s: seq<WorkDay>): (r: seq<WorkDay>)
    ensures Sorted(dir, r)
    ensures multiset(r) == multiset(s)
    ensures |r| == |s|
  {
    if |s| == 0 then []
    else
      assert s == [s[0]] + s[1..];
      Insert(dir, s[0], Sort(dir, s[1..]))
  }

  /** Sorting a list that is already in order leaves it as it is. */
  lemma {:induction false} SortOfSorted(dir: Direction, s: seq<WorkDay>)
    requires Sorted(dir, s)
    ensures Sort(dir, s) == s
  {
    if |s| > 0 {
      SortOfSorted(dir, s[1..]);
      assert s == [s[0]] + s[1..];
    }
  }

  /** The records of one date. */
  function OnDate(day: Date): WorkDay -> bool {
    (d: WorkDay) => d.date == day
  }

  /** Inserting `x` puts it ahead of every record of its own date. */
  lemma {:induction false} InsertOnDate(dir: Direction, x: WorkDay, t: seq<WorkDay>, day: Date)
    requires Sorted(dir, t)
    ensures Filter(Insert(dir, x, t), OnDate(day))
         == (if x.date == day then [x] else []) + Filter(t, OnDate(day))
    decreases |t|
  {
    if |t| == 0 || Precedes(dir, x, t[0]) {
      assert ([x] + t)[1..] == t;
    } else {
      assert Sorted(dir, t[1..]);
      InsertOnDate(dir, x, t[1..], day);
      InsertPast(dir, x, t, day);
    }
  }

  /** The step of InsertOnDate where `x` goes past the first record, whose
      date therefore differs from `x`'s. */
  lemma InsertPast(dir: Direction, x: WorkDay, t: seq<WorkDay>, day: Date)
    requires Sorted(dir, t) && |t| > 0 && !Precedes(dir, x, t[0])
    requires Sorted(dir, t[1..])
    requires Filter(Insert(dir, x, t[1..]), OnDate(day))
          == (if x.date == day then [x] else []) + Filter(t[1..], OnDate(day))
    ensures Filter(Insert(dir, x, t), OnDate(day))
         == (if x.date == day then [x] else []) + Filter(t, OnDate(day))
  {
    var u := Insert(dir, x, t[1..]);
    assert Insert(dir, x, t) == [t[0]] + u;
    assert t[0].date != x.date;
    FilterPast(t[0], u, t, x, day);
  }

  lemma FilterPast(y: WorkDay, u: seq<WorkDay>, t: seq<WorkDay>, x: WorkDay, day: Date)
    requires |t| > 0 && y == t[0] && y.date != x.date
    requires Filter(u, OnDate(day)) == (if x.date == day then [x] else []) + Filter(t[1..], OnDate(day))
    ensures Filter([y] + u, OnDate(day)) == (if x.date == day then [x] else []) + Filter(t, OnDate(day))
  {
    var q := OnDate(day);
    FilterCons(y, u, q);
    FilterCons(y, t[1..], q);
    assert [y] + t[1..] == t;
    var head := if q(y) then [y] else [];
    assert Filter([y] + u, q) == head + Filter(u, q);
    assert Filter(t, q) == head + Filter(t[1..], q);
    if x.date == day {
      assert !q(y);
      assert head == [];
    } else {
      assert Filter(u, q) == Filter(t[1..], q);
    }
  }

  /** The sort is stable: the records of any one date keep their relative
      order, as `Array.prototype.sort` guarantees. */
  lemma {:induction false} SortIsStable(dir: Direction, s: seq<WorkDay>, day: Date)
    ensures Filter(Sort(dir, s), OnDate(day)) == Filter(s, OnDate(day))
  {
    if |s| > 0 {
      SortIsStable(dir, s[1..], day);
      InsertOnDate(dir, s[0], Sort(dir, s[1..]), day);
    }
  }

  lemma SortIdempotent(dir: Direction, s: seq<WorkDay>)
    ensures Sort(dir, Sort(dir, s)) == Sort(dir, s)
  {
    SortOfSorted(dir, Sort(dir, s));
  }

  /** Removing records from a sorted list keeps it sorted. */
  lemma {:induction false} SortedSubsequence(dir: Direction, a: seq<WorkDay>, b: seq<WorkDay>)
    requires IsSubsequence(a, b) && Sorted(dir, b)
    ensures Sorted(dir, a)
    decreases |b|
  {
    if |a| > 0 && |b| > 0 {
      if a[0] == b[0] {
        SortedSubsequence(dir, a[1..], b[1..]);
        SubsequenceMembers(a[1..], b[1..]);
        forall i, j | 0 <= i < j < |a|
          ensures Precedes(dir, a[i], a[j])
        {
          if i == 0 {
            assert a[j] == a[1..][j - 1];
            assert a[j] in b[1..];
            var k :| 0 <= k < |b[1..]| && b[1..][k] == a[j];
            assert b[k + 1] == a[j];
          } else {
            assert a[i] == a[1..][i - 1] && a[j] == a[1..][j - 1];
          }
        }
      } else {
        SortedSubsequence(dir, a, b[1..]);
      }
    }
  }

  lemma {:induction false} SubsequenceMembers<T>(a: seq<T>, b: seq<T>)
    requires IsSubsequence(a, b)
    ensures forall x :: x in a ==> x in b
    decreases |b|
  {
    if |a| > 0 && |b| > 0 {
      if a[0] == b[0] {
        SubsequenceMembers(a[1..], b[1..]);
        assert a == [a[0]] + a[1..];
      } else {
        SubsequenceMembers(a, b[1..]);
      }
    }
  }

  /** At most one record per date. */
  predicate UniqueDates(s: seq<WorkDay>) {
    forall i, j :: 0 <= i < j < |s| ==> s[i].date != s[j].date
  }

  function DatesOf(s: seq<WorkDay>): set<Date> {
    set i | 0 <= i < |s| :: s[i].date
  }

  lemma TwoIndicesCount<T>(s: seq<T>, i: int, j: int)
    requires 0 <= i < j < |s|
    ensures s[i] == s[j] ==> multiset(s)[s[i]] >= 2
  {
    assert s == s[..j] + s[j..];
    assert s[i] in s[..j];
    assert s[j] in s[j..];
  }

  lemma TwoIndicesOrdered<T>(s: seq<T>, i: int, j: int)
    requires 0 <= i < |s| && 0 <= j < |s| && i != j && s[i] == s[j]
    ensures multiset(s)[s[i]] >= 2
  {
    if i < j {
      TwoIndicesCount(s, i, j);
    } else {
      TwoIndicesCount(s, j, i);
    }
  }

  lemma {:induction false} UniqueDatesCount(s: seq<WorkDay>, x: WorkDay)
    requires UniqueDates(s) && x in s
    ensures multiset(s)[x] == 1
  {
    assert s == [s[0]] + s[1..];
    if s[0] == x {
      assert x !in s[1..];
    } else {
      UniqueDatesCount(s[1..], x);
    }
  }

  /** The one-record-per-date convention depends only on which records are
      present, so it survives reordering and removal. */
  lemma UniqueDatesSubMultiset(a: seq<WorkDay>, b: seq<WorkDay>)
    requires UniqueDates(a) && multiset(b) <= multiset(a)
    ensures UniqueDates(b)
  {
    forall i, j | 0 <= i < j < |b|
      ensures b[i].date != b[j].date
    {
      assert b[i] in multiset(a) && b[j] in multiset(a);
      var p :| 0 <= p < |a| && a[p] == b[i];
      var q :| 0 <= q < |a| && a[q] == b[j];
      TwoIndicesCount(b, i, j);
      UniqueDatesCount(a, b[i]);
    }
  }

  /** Sum of the rates, in list order (`reduce((acc, d) => acc + d.rate, 0)`). */
  function SumRates(s: seq<WorkDay>): real {
    if |s| == 0 then 0.0 else s[0].rate + SumRates(s[1..])
  }

  lemma {:induction false} SumRatesAppend(a: seq<WorkDay>, b: seq<WorkDay>)
    ensures SumRates(a + b) == SumRates(a) + SumRates(b)
  {
    if |a| > 0 {
      assert (a + b)[1..] == a[1..] + b;
      SumRatesAppend(a[1..], b);
    } else {
      assert a + b == b;
    }
  }

  /** Taking out the record at position `k`. */
  lemma SumRatesRemove(b: seq<WorkDay>, k: int)
    requires 0 <= k < |b|
    ensures SumRates(b) == b[k].rate + SumRates(b[..k] + b[k + 1..])
    ensures multiset(b[..k] + b[k + 1..]) == multiset(b) - multiset{b[k]}
  {
    var rest := [b[k]] + b[k + 1..];
    assert b == b[..k] + rest;
    SumRatesAppend(b[..k], rest);
    SumRatesAppend(b[..k], b[k + 1..]);
    assert rest[1..] == b[k + 1..];
    RemoveOne(b, k);
  }

  lemma RemoveOne(b: seq<WorkDay>, k: int)
    requires 0 <= k < |b|
    ensures multiset(b[..k] + b[k + 1..]) == multiset(b) - multiset{b[k]}
  {
    assert b == b[..k] + [b[k]] + b[k + 1..];
  }

  /** The sum does not depend on the order of the records. */
  lemma {:induction false} SumRatesPermutation(a: seq<WorkDay>, b: seq<WorkDay>)
    requires multiset(a) == multiset(b)
    ensures SumRates(a) == SumRates(b)
    decreases |a|
  {
    if |a| > 0 {
      assert a[0] in multiset(b);
      var k :| 0 <= k < |b| && b[k] == a[0];
      SumRatesRemove(b, k);
      assert a == [a[0]] + a[1..];
      SumRatesPermutation(a[1..], b[..k] + b[k + 1..]);
    } else {
      assert |b| == |multiset(b)| == 0;
    }
  }

  /** The records with status `st`. */
  function HasStatus(st: Status): WorkDay -> bool {
    (d: WorkDay) => d.status == st
  }

  /** Sum of the rates of the records with status `st`. */
  function StatusSum(days: seq<WorkDay>, st: Status): real {
    SumRates(Filter(days, HasStatus(st)))
  }

  lemma {:induction false} StatusSumAppend(a: seq<WorkDay>, b: seq<WorkDay>, st: Status)
    ensures StatusSum(a + b, st) == StatusSum(a, st) + StatusSum(b, st)
  {
    if |a| > 0 {
      assert (a + b)[1..] == a[1..] + b;
      StatusSumAppend(a[1..], b, st);
    } else {
      assert a + b == b;
    }
  }

  /** Every record is pending or paid, so the two sums split the total. */
  lemma {:induction false} StatusPartition(days: seq<WorkDay>)
    ensures StatusSum(days, Pending) + StatusSum(days, Paid) == SumRates(days)
  {
    if |days| > 0 {
      StatusPartition(days[1..]);
    }
  }
}

=== FILE: seqs.dfy ===
/** Order-preserving selection over sequences, the `Array.prototype.filter`
    the store and the views are built from. */
module Seqs {

  /** The elements of `s` satisfying `p`, in their original order. */
  function Filter<T(==,!new)>(s: seq<T>, p: T -> bool): (r: seq<T>)
    ensures |r| <= |s|
    ensures forall x :: x in r <==> x in s && p(x)
    ensures forall x :: multiset(r)[x] == if p(x) then multiset(s)[x] else 0
  {
    if |s| == 0 then []
    else
      assert s == [s[0]] + s[1..];
      if p(s[0]) then [s[0]] + Filter(s[1..], p) else Filter(s[1..], p)
  }

  /** `a` can be obtained from `b` by deleting elements, keeping the order. */
  predicate IsSubsequence<T(==)>(a: seq<T>, b: seq<T>)
    decreases |b|
  {
    if |a| == 0 then true
    else if |b| == 0 then false
    else if a[0] == b[0] then IsSubsequence(a[1..], b[1..])
    else IsSubsequence(a, b[1..])
  }

  lemma {:induction false} FilterIsSubsequence<T(!new)>(s: seq<T>, p: T -> bool)
    ensures IsSubsequence(Filter(s, p), s)
  {
    if |s| > 0 {
      FilterIsSubsequence(s[1..], p);
      var r := Filter(s, p);
      if p(s[0]) {
        assert r[0] == s[0] && r[1..] == Filter(s[1..], p);
      } else if |r| > 0 {
        assert r == Filter(s[1..], p);
        assert p(r[0]);
      }
    }
  }

  lemma FilterCons<T(!new)>(y: T, s: seq<T>, p: T -> bool)
    ensures Filter([y] + s, p) == (if p(y) then [y] else []) + Filter(s, p)
  {
    assert ([y] + s)[1..] == s;
  }

  /** Selection distributes over concatenation. */
  lemma {:induction false} FilterAppend<T(!new)>(a: seq<T>, b: seq<T>, p: T -> bool)
    ensures Filter(a + b, p) == Filter(a, p) + Filter(b, p)
  {
    if |a| > 0 {
      assert (a + b)[1..] == a[1..] + b;
      FilterAppend(a[1..], b, p);
    } else {
      assert a + b == b;
    }
  }

  /** Each element is kept by exactly one of two complementary selections. */
  lemma {:induction false} FilterComplement<T(!new)>(s: seq<T>, p: T -> bool, q: T -> bool)
    requires forall x :: q(x) <==> !p(x)
    ensures |Filter(s, p)| + |Filter(s, q)| == |s|
  {
    if |s| > 0 {
      FilterComplement(s[1..], p, q);
    }
  }

  /** Selecting with `q` after `p` is selecting with `q` alone when `q`
      implies `p`. */
  lemma {:induction false} FilterFilterSub<T(!new)>(s: seq<T>, p: T -> bool, q: T -> bool)
    requires forall x :: q(x) ==> p(x)
    ensures Filter(Filter(s, p), q) == Filter(s, q)
  {
    if |s| > 0 {
      FilterFilterSub(s[1..], p, q);
      if p(s[0]) {
        FilterCons(s[0], Filter(s[1..], p), q);
      }
    }
  }

  /** Selecting with `q` after `p` keeps nothing when `q` excludes `p`. */
  lemma {:induction false} FilterFilterNone<T(!new)>(s: seq<T>, p: T -> bool, q: T -> bool)
    requires forall x :: q(x) ==> !p(x)
    ensures Filter(Filter(s, p), q) == []
  {
    FilterNone(Filter(s, p), q);
  }

  /** A selection that accepts no element of the list is empty. */
  lemma {:induction false} FilterNone<T(!new)>(s: seq<T>, p: T -> bool)
    requires forall x :: x in s ==> !p(x)
    ensures Filter(s, p) == []
  {
    if |s| > 0 {
      assert s[0] in s;
      FilterNone(s[1..], p);
    }
  }

  /** A selection that keeps every element is the identity. */
  lemma {:induction false} FilterAll<T(!new)>(s: seq<T>, p: T -> bool)
    ensures (forall i :: 0 <= i < |s| ==> p(s[i])) ==> Filter(s, p) == s
  {
    if |s| > 0 && forall i :: 0 <= i < |s| ==> p(s[i]) {
      FilterAll(s[1..], p);
      assert s == [s[0]] + s[1..];
    }
  }

  /** A selection that rejects exactly one position drops exactly one element. */
  lemma {:induction false} FilterDropsOne<T(!new)>(s: seq<T>, p: T -> bool, k: int)
    requires 0 <= k < |s| && !p(s[k])
    requires forall i :: 0 <= i < |s| && i != k ==> p(s[i])
    ensures |Filter(s, p)| == |s| - 1
  {
    if k == 0 {
      FilterAll(s[1..], p);
    } else {
      FilterDropsOne(s[1..], p, k - 1);
    }
  }
}

=== FILE: store.dfy ===
/** The record store of the tracker: the list of work days kept most recent
    first, and the three operations that change it (App.tsx). */
module Store {
  import opened Calendar
  import opened Types
  import opened Seqs
  import opened Records

  /** The store's state: the records and the default rate the tracker keeps
      and hands to the entry form. The form copies that rate into its rate
      field only when it first renders (AddEntryModal.tsx:18); it stays
      mounted while closed, so later changes to the default rate do not
      reach the field. */
  datatype Store = Store(days: seq<WorkDay>, defaultRate: real)

  /** The state before anything is loaded: no records, default rate 100. */
  function Empty(): (st: Store)
    ensures |st.days| == 0 && st.defaultRate == 100.0
  {
    Store([], 100.0)
  }

  /** Upsert by date: records of the store whose date occurs in the batch are
      dropped, the batch is appended, and the result is sorted most recent
      first. The default rate becomes the first new record's rate. */
  function AddDays(st: Store, batch: seq<WorkDay>): (r: Store)
    ensures Sorted(Descending, r.days)
    ensures forall x ::
              multiset(r.days)[x]
              == (if x.date in DatesOf(batch) then 0 else multiset(st.days)[x]) + multiset(batch)[x]
    ensures forall x :: x in r.days <==> (x in st.days && x.date !in DatesOf(batch)) || x in batch
    ensures |batch| > 0 ==> r.defaultRate == batch[0].rate
    ensures |batch| == 0 ==> r.defaultRate == st.defaultRate
  {
    var newDates := DatesOf(batch);
    var clean := Filter(st.days, (d: WorkDay) => d.date !in newDates);
    var rate := if |batch| > 0 then batch[0].rate else st.defaultRate;
    var days := Sort(Descending, clean + batch);
    UpsertContents(st.days, batch, clean, days);
    Store(days, rate)
  }

  /** The records of any one date come out of the upsert in the order they
      went in: the batch's for a date of the batch, the store's otherwise. */
  lemma AddDaysStable(st: Store, batch: seq<WorkDay>, day: Date)
    ensures Filter(AddDays(st, batch).days, OnDate(day))
         == if day in DatesOf(batch) then Filter(batch, OnDate(day)) else Filter(st.days, OnDate(day))
  {
    var newDates := DatesOf(batch);
    var kept := (d: WorkDay) => d.date !in newDates;
    var clean := Filter(st.days, kept);
    assert AddDays(st, batch).days == Sort(Descending, clean + batch);
    SortIsStable(Descending, clean + batch, day);
    FilterAppend(clean, batch, OnDate(day));
    if day in newDates {
      FilterFilterNone(st.days, kept, OnDate(day));
    } else {
      FilterFilterSub(st.days, kept, OnDate(day));
      FilterNone(batch, OnDate(day));
    }
  }

  lemma UpsertContents(previous: seq<WorkDay>, batch: seq<WorkDay>, clean: seq<WorkDay>, days: seq<WorkDay>)
    requires forall x :: multiset(clean)[x] == if x.date !in DatesOf(batch) then multiset(previous)[x] else 0
    requires multiset(days) == multiset(clean + batch)
    ensures forall x ::
              multiset(days)[x]
              == (if x.date in DatesOf(batch) then 0 else multiset(previous)[x]) + multiset(batch)[x]
    ensures forall x :: x in days <==> (x in previous && x.date !in DatesOf(batch)) || x in batch
  {
    assert multiset(clean + batch) == multiset(clean) + multiset(batch);
    forall x
      ensures x in days <==> (x in previous && x.date !in DatesOf(batch)) || x in batch
    {
      assert x in days <==> multiset(days)[x] > 0;
      assert x in previous <==> multiset(previous)[x] > 0;
      assert x in batch <==> multiset(batch)[x] > 0;
    }
  }

  /** If the store and the batch each hold at most one record per date, so
      does the store after the upsert. */
  lemma AddDaysKeepsUniqueDates(st: Store, batch: seq<WorkDay>)
    requires UniqueDates(st.days) && UniqueDates(batch)
    ensures UniqueDates(AddDays(st, batch).days)
  {
    var newDates := DatesOf(batch);
    var clean := Filter(st.days, (d: WorkDay) => d.date !in newDates);
    UniqueDatesSubMultiset(st.days, clean);
    var joined := clean + batch;
    forall i, j | 0 <= i < j < |joined|
      ensures joined[i].date != joined[j].date
    {
      if j < |clean| {
        assert joined[i] == clean[i] && joined[j] == clean[j];
      } else if i >= |clean| {
        assert joined[i] == batch[i - |clean|] && joined[j] == batch[j - |clean|];
      } else {
        assert joined[i] == clean[i] && joined[i] in clean;
        assert joined[j] == batch[j - |clean|];
        assert joined[j].date in newDates;
      }
    }
    UniqueDatesSubMultiset(joined, AddDays(st, batch).days);
  }

  /** Re-entering a date replaces what was there: afterwards the store holds
      exactly one record for that date, the new one. */
  lemma AddDaysReplaces(st: Store, batch: seq<WorkDay>, b: WorkDay)
    requires UniqueDates(batch) && b in batch
    ensures b in AddDays(st, batch).days
    ensures multiset(AddDays(st, batch).days)[b] == 1
    ensures forall x :: x in AddDays(st, batch).days && x.date == b.date ==> x == b
  {
    var r := AddDays(st, batch).days;
    assert b.date in DatesOf(batch);
    UniqueDatesCount(batch, b);
    forall x | x in r && x.date == b.date
      ensures x == b
    {
      assert x in batch;
      var i :| 0 <= i < |batch| && batch[i] == x;
      var j :| 0 <= j < |batch| && batch[j] == b;
    }
  }

  /** After the upsert the rates add up to those of the kept records plus
      those of the batch. */
  lemma AddDaysTotal(st: Store, batch: seq<WorkDay>)
    ensures SumRates(AddDays(st, batch).days)
         == SumRates(Filter(st.days, (d: WorkDay) => d.date !in DatesOf(batch))) + SumRates(batch)
  {
    var clean := Filter(st.days, (d: WorkDay) => d.date !in DatesOf(batch));
    SumRatesPermutation(AddDays(st, batch).days, clean + batch);
    SumRatesAppend(clean, batch);
  }

  /** A record for a date the store does not have yet adds one record. */
  lemma AddNewDayGrows(st: Store, b: WorkDay)
    requires b.date !in DatesOf(st.days)
    ensures |AddDays(st, [b]).days| == |st.days| + 1
  {
    var newDates := DatesOf([b]);
    assert [b][0] == b;
    assert newDates == {b.date};
    FilterAll(st.days, (d: WorkDay) => d.date !in newDates);
  }

  /** With one record per date, re-entering a stored date keeps the size. */
  lemma AddExistingDayKeepsSize(st: Store, b: WorkDay)
    requires UniqueDates(st.days) && b.date in DatesOf(st.days)
    ensures |AddDays(st, [b]).days| == |st.days|
  {
    var newDates := DatesOf([b]);
    assert [b][0] == b;
    assert newDates == {b.date};
    var k :| 0 <= k < |st.days| && st.days[k].date == b.date;
    FilterDropsOne(st.days, (d: WorkDay) => d.date !in newDates, k);
  }

  /** Flips PENDING and PAID on the records with the given id; every other
      record and every other field is left as it was. */
  function ToggleStatus(days: seq<WorkDay>, id: Id): (r: seq<WorkDay>)
    ensures |r| == |days|
    ensures forall i :: 0 <= i < |r| ==> (r[i].status != days[i].status <==> days[i].id == id)
    ensures forall i :: 0 <= i < |r| ==> r[i].(status := days[i].status) == days[i]
  {
    seq(|days|, i requires 0 <= i < |days| =>
      if days[i].id == id then days[i].(status := Flip(days[i].status)) else days[i])
  }

  lemma ToggleInvolution(days: seq<WorkDay>, id: Id)
    ensures ToggleStatus(ToggleStatus(days, id), id) == days
  {
    var r := ToggleStatus(ToggleStatus(days, id), id);
    forall i | 0 <= i < |days|
      ensures r[i] == days[i]
    {
      FlipInvolution(days[i].status);
    }
  }

  lemma ToggleKeepsSorted(days: seq<WorkDay>, id: Id)
    requires Sorted(Descending, days)
    ensures Sorted(Descending, ToggleStatus(days, id))
  {
    var r := ToggleStatus(days, id);
    forall i | 0 <= i < |r|
      ensures r[i].date == days[i].date
    {
      assert r[i].(status := days[i].status).date == r[i].date;
    }
  }

  /** Removes the records with the given id, keeping the others in order. */
  function DeleteDay(days: seq<WorkDay>, id: Id): (r: seq<WorkDay>)
    ensures forall x :: multiset(r)[x] == if x.id == id then 0 else multiset(days)[x]
    ensures forall x :: x in r <==> x in days && x.id != id
    ensures IsSubsequence(r, days)
  {
    FilterIsSubsequence(days, (d: WorkDay) => d.id != id);
    Filter(days, (d: WorkDay) => d.id != id)
  }

  lemma DeleteAbsentIsIdentity(days: seq<WorkDay>, id: Id)
    requires forall i :: 0 <= i < |days| ==> days[i].id != id
    ensures DeleteDay(days, id) == days
  {
    FilterAll(days, (d: WorkDay) => d.id != id);
  }

  /** With unique ids, deleting a present id removes exactly one record. */
  lemma DeletePresentShrinks(days: seq<WorkDay>, id: Id, k: int)
    requires 0 <= k < |days| && days[k].id == id
    requires forall i :: 0 <= i < |days| && i != k ==> days[i].id != id
    ensures |DeleteDay(days, id)| == |days| - 1
  {
    FilterDropsOne(days, (d: WorkDay) => d.id != id, k);
  }

  lemma DeleteKeepsSorted(days: seq<WorkDay>, id: Id)
    requires Sorted(Descending, days)
    ensures Sorted(Descending, DeleteDay(days, id))
  {
    SortedSubsequence(Descending, DeleteDay(days, id), days);
  }
}

=== FILE: types.dfy ===
/** The record kept per work day, with the two closed enumerations whose
    persisted value is their display token. */
module Types {
  import opened Wrappers
  import opened Calendar

  datatype Location = Home | Office | Other

  datatype Status = Pending | Paid

  /** The opaque, immutable identifier given to a record at creation. */
  type Id = string

  /** One billable work day. `notes` is the only optional field. */
  datatype WorkDay = WorkDay(
    id: Id,
    date: Date,
    location: Location,
    status: Status,
    rate: real,
    notes: Option<string>,
    createdAt: int)

  /** The literal string a location is stored and shown as. */
  function LocationToken(l: Location): string {
    match l
    case Home => "Casa"
    case Office => "Empresa"
    case Other => "Otro"
  }

  /** The literal string a status is stored and shown as. */
  function StatusToken(s: Status): string {
    match s
    case Pending => "Pendiente"
    case Paid => "Pagado"
  }

  function LocationFromToken(t: string): (r: Option<Location>)
    ensures forall l :: r == Some(l) <==> LocationToken(l) == t
  {
    if t == "Casa" then Some(Home)
    else if t == "Empresa" then Some(Office)
    else if t == "Otro" then Some(Other)
    else None
  }

  function StatusFromToken(t: string): (r: Option<Status>)
    ensures forall s :: r == Some(s) <==> StatusToken(s) == t
  {
    if t == "Pendiente" then Some(Pending)
    else if t == "Pagado" then Some(Paid)
    else None
  }

  /** Reading back a stored location token gives the location; the three
      tokens are pairwise distinct. */
  lemma LocationTokenRoundTrip(l: Location, t: string)
    ensures LocationFromToken(LocationToken(l)) == Some(l)
    ensures LocationFromToken(t) == None <==> t !in {"Casa", "Empresa", "Otro"}
  {
  }

  lemma StatusTokenRoundTrip(s: Status, t: string)
    ensures StatusFromToken(StatusToken(s)) == Some(s)
    ensures StatusFromToken(t) == None <==> t !in {"Pendiente", "Pagado"}
  {
  }

  /** The toggle: PENDING becomes PAID and anything else becomes PENDING. */
  function Flip(s: Status): (r: Status)
    ensures r != s
    ensures r == Paid <==> s == Pending
  {
    if s == Pending then Paid else Pending
  }

  lemma FlipInvolution(s: Status)
    ensures Flip(Flip(s)) == s
  {
  }
}

=== FILE: wrappers.dfy ===
/** Optional values and results with an error, as used across the model. */
module Wrappers {

  datatype Option<+T> = None | Some(value: T)

  datatype Result<+R, +E> = Ok(value: R) | Err(error: E)
}
